=== FILE: README.md ===
# Procedural vegetation: grass clumps, shrub leaves and the shrub frame cache

This project models two pieces of a canvas animation in Dafny.

- **Grass clumps** (`field-b/src/app.ts`). A clump is an array of blades. Blades are created from random deviations around an origin. Each tick a blade's control points take a clamped random walk, and the blade bends down while its origin lies strictly inside a scene object's box. The clump array is filled lazily. A timestamp window gives the frames-per-second counter.
- **Shrub** (`field-c/src/_shrub.ts`). A shrub is a grid of leaves: six layers of 180 one-degree angles each. The leaves are regenerated only when they are absent or empty. `ShrubLoop.render` runs a per-angle frame cache: it draws and captures frames until the bucket is full, then replays them. With `reverseLoop` set, it reverses the bucket whenever the last cached frame is shown.

Modelling choices:

- **Randomness.** `Math.random` is an explicit stream of draws in [0, 1) (`Prelude.UnitDraws`). Every random operation returns the value and the unused rest of the stream (`Prelude.Draw`) inside an `Option`. `None` means the stream ran out before a draw was accepted. `deviate` redraws by calling itself, so when no draw is ever accepted the source recurses until the call stack overflows (a `RangeError`), or redraws forever on an engine that eliminates tail calls; `None` stands for both outcomes, and the stream's length is the fuel.
- **Bend rotations.** `rotGrassUp` and `rotGrassDown` are computed once when the module loads. Here they are a configuration value (`Grass.Config`).
- **Shrub jitter.** The horizontal jitter and the height deviation of a leaf come from helpers that are not part of this model. They are inputs, as functions of (layer, angle) (`Shrubs.Jitter`).
- **Captured frames.** A captured frame (`draw` followed by `getImageData`) is an opaque value of a type parameter `F`, passed in once per `render` call.
- **The render step.** `render` reads the current angle's bucket, works on it and stores it back. `FrameCache.Advance` is that work on a cursor: the frame counters plus the bucket. `FrameCache.Render` wraps it with the per-angle map.

Behaviours of the code worth knowing:

- The palette index `(tI + iP) % (cShrubs.length - 1)` is always 0 or 1, so the third shrub colour is never used.
- The fill guard `grassBlades.length <= numBlades` fills a clump twice. It ends with `2 * numBlades` blades, of which only the first `numBlades` are ever updated.
- With `reverseLoop`, the bucket is reversed on every call that shows its last frame. During the fill phase that is every drawing call, so playback ping-pongs rather than reversing once.
- `deviate(x, 1.5, 0.5)` never accepts a draw for a negative `x`, so a blade at a negative origin is never created: the source recurses until the call stack overflows (a `RangeError`), or forever where tail calls are eliminated.

## Model

| member | source | states |
|---|---|---|
| Deviation.RejectsIffNotAccepts | field-b/src/app.ts:22-24 | the two rejection tests `num*multi > num*up` and `num*multi < num*low` reject exactly the draws whose multiplier `ran + 0.5` lies outside [low, up] for a positive base and outside [up, low] for a negative base, and no draw for a zero base |
| Deviation.FirstAccepted | field-b/src/app.ts:19-26 | the index of the first acceptable draw: every earlier draw is rejected, and the draw at that index is accepted unless the stream ran out |
| Deviation.Deviate | field-b/src/app.ts:19-26 | the result is `num * (r + 0.5)` for the first acceptable draw `r`, and rejected draws only cause a redraw. It lies in [num*low, num*up], and in [num/2, 1.5*num) for a positive base. It is absent exactly when no draw in the stream is acceptable. The unused draws follow the accepted one |
| Deviation.DeviateTakesFirstDraw | field-b/src/app.ts:19-26 | a positive base with low <= 0.5 and up >= 1.5 accepts the very first draw |
| Deviation.DeviateUnsatisfiable | field-b/src/app.ts:19-26 | a positive base with up < 0.5 or low >= 1.5 accepts no draw, so the source recurses until the call stack overflows (a `RangeError`), or forever where tail calls are eliminated |
| Deviation.NegativeBaseUnsatisfiable | field-b/src/app.ts:19-26 | a negative base with up >= 1.5 accepts no draw |
| Deviation.MaxMin | field-b/src/app.ts:28-32 | the result lies in [min, max] when min <= max, equals `num` when `num` is in range, equals `max` above the range and `min` below it, and is always one of the three inputs |
| Deviation.MaxMinIdempotentMonotone | field-b/src/app.ts:28-32 | clamping twice is clamping once, and clamping preserves order |
| Deviation.Flip | field-b/src/app.ts:34 | consumes one draw; the sign is 1 exactly when the draw exceeds 0.5, otherwise -1 |
| Grass.Pos | field-b/src/app.ts:83-91 | the box is `width` wide and `width` tall and is centred on the presence |
| Grass.Covered | field-b/src/app.ts:101 | `objects.map(pos).some(...)` holds exactly when the box of some presence in the list strictly contains the blade's origin |
| Grass.CoveredIff | field-b/src/app.ts:101 | the strict box test over all presences holds exactly when some presence's centre is less than half its width away from the point on both axes, so a point on an edge counts as outside |
| Grass.CreateOrigin | field-b/src/app.ts:109-110 | the blade's x lies in [x/2, 1.5*x) for x > 0 and is 0 for x = 0; its y is 0.5 to 1 away from `y` |
| Grass.CreateColour | field-b/src/app.ts:113-126 | all three channels are shifted by one shared amount of magnitude 2.5 to 5, and alpha lies in [0.625, 0.875) |
| Grass.NewBlade | field-b/src/app.ts:116-129 | the blade literal: `x1 = 5*xF`, `x2 = 35*xF`, `y1 = -h/2`, `y2 = -h`, `lW = 1`, `rot = rotGrassUp` |
| Grass.CreateGrassBlade | field-b/src/app.ts:108-132 | a created blade has `xF` in {-1, 1}, `x1 = 5*xF`, `x2 = 35*xF`, `y1 = -h/2`, `y2 = -h`, `lW = 1` and `rot = rotGrassUp`, plus the height, radius, origin and colour bounds its deviations imply. It consumes at least one draw |
| Grass.FreshBladeSides | field-b/src/app.ts:121-122 | both control points of a new blade lie on the side its `xF` names, `x2` further out than `x1` |
| Grass.NegativeOriginNeverCreates | field-b/src/app.ts:109 | no blade is ever created for a negative origin x |
| Grass.WalkShift | field-b/src/app.ts:97 | the walk step has magnitude between 0.25 and 0.5 |
| Grass.UpdateGrassBlade | field-b/src/app.ts:96-106 | only `x1`, `x2` and `rot` change. `x1` stays in [-10, 10] and `x2` in [-50, 50]. Both are moved by the one walk step `s` that the update draws, of size 0.25 to 0.5, and each is then clamped: `x1' = maxMin(x1 + s, 10, -10)` and `x2' = maxMin(x2 + s, 50, -50)`. Away from the limits both therefore move by exactly `s`, and no point moves more than 0.5 when it starts in range. `rot` is `rotGrassDown` exactly when the origin is strictly inside some presence, otherwise `rotGrassUp` |
| Grass.WalkKeepsClumpBlade | field-b/src/app.ts:98-99 | a walked blade keeps every creation property and has its control points within the clamp ranges |
| Grass.CreateBlades | field-b/src/app.ts:140-142 | the fill loop yields exactly `count` blades, each a freshly created blade of the clump's origin and colour |
| Grass.UpdateRange | field-b/src/app.ts:145-147 | blades in the updated index range are walked; every other blade is unchanged and the length is kept |
| Grass.Fill | field-b/src/app.ts:139-143 | at most `numBlades` blades (note `<=`) gain `numBlades` fresh blades at the end, existing blades are kept in place, and a longer array is left alone |
| Grass.DrawGrassBlades | field-b/src/app.ts:138-147 | the length grows by `numBlades` exactly when it was at most `numBlades`. Only the first `numBlades` blades are walked, and blades at or beyond `numBlades` are unchanged. Every new blade is a blade of the clump, bent by the presences if it was updated and upright and fresh otherwise |
| Grass.FilledThenUpdated | field-b/src/app.ts:138-147 | composing the fill with the update gives the per-index facts of `DrawGrassBlades` |
| Grass.ClumpGrowth | field-b/src/app.ts:139-143 | an empty clump holds `numBlades` blades after the first call, `2 * numBlades` after the second, and still `2 * numBlades` after the third |
| Grass.CreateOriginSucceeds | field-b/src/app.ts:109-110 | at a non-negative `x`, draws of at most 0.5 are all accepted, so the origin takes exactly three of them |
| Grass.CreateColourSucceeds | field-b/src/app.ts:113-114 | the colour takes exactly three draws of at most 0.5 |
| Grass.CreateGrassBladeSucceeds | field-b/src/app.ts:108-132 | at a non-negative `x`, a blade is created from exactly nine draws of at most 0.5 |
| Grass.WalkShiftSucceeds | field-b/src/app.ts:97 | the walk step takes exactly two draws of at most 0.5 |
| Grass.UpdateGrassBladeSucceeds | field-b/src/app.ts:96-106 | an update succeeds on two draws of at most 0.5 and takes exactly those |
| Grass.CreateBladesSucceeds | field-b/src/app.ts:140-142 | at a non-negative `x`, the fill loop creates `count` blades from exactly `9 * count` draws of at most 0.5 |
| Grass.UpdateRangeSucceeds | field-b/src/app.ts:145-147 | the update loop walks its range from exactly two draws of at most 0.5 per blade |
| Grass.FillSucceeds | field-b/src/app.ts:139-143 | at a non-negative `x`, the lazy fill succeeds and takes `9 * numBlades` draws of at most 0.5 when it fills and none otherwise |
| Grass.DrawGrassBladesSucceeds | field-b/src/app.ts:138-147 | at a non-negative `x`, a clump draw succeeds and takes exactly `11 * numBlades` draws of at most 0.5 when it fills and `2 * numBlades` when it does not |
| Grass.ClumpGrowthReached | field-b/src/app.ts:138-147 | from an empty clump at a non-negative `x`, `24 * numBlades` draws of at most 0.5 make all three calls of `ClumpGrowth` succeed, so its growth facts are reached |
| FrameRate.Evict | field-b/src/app.ts:156-158 | the kept timestamps are a suffix of the queue; every dropped one is at or before `now - 1000` and the first kept one is after it |
| FrameRate.AnimFrames | field-b/src/app.ts:154-160 | the new window is the evicted queue followed by `now`, and `fps` is its length, at least 1 |
| FrameRate.EvictSortedAllFresh | field-b/src/app.ts:156-158 | for a non-decreasing queue every kept timestamp is after `now - 1000` |
| FrameRate.WindowStaysSorted | field-b/src/app.ts:156-159 | a non-decreasing queue whose last entry is not after `now` stays non-decreasing once evicted and extended with `now` |
| Shrubs.LeafAt | field-c/src/_shrub.ts:41-62 | the leaf at position `k` of layer `tI` has rotation `-90 + k`, in [-90, 90). Its palette index is `(tI + k) % 2`, never the third colour. Its x is `x + width/2 + (min(120, 0.7*width) - 2*tI)/180 * rot` plus the horizontal jitter plus 0.5, so the layer spans its base width around the canvas centre. Its y is `y + tI + 0.5 - abs(rot)/20`, since the curve offset is `-abs(i)/20`. Its height is `60 - 10*tI` minus the height jitter minus `abs(rot)/20` |
| Shrubs.LayerLeaves | field-c/src/_shrub.ts:47-66 | the inner loop yields `k` leaves, the j-th being the leaf at angle position `j` |
| Shrubs.ShrubLeaves | field-c/src/_shrub.ts:41-67 | `t` layers yield `180 * t` leaves in layer-major order: index `u * 180 + j` holds the leaf at layer `u`, angle position `j` |
| Shrubs.CreateShrub | field-c/src/_shrub.ts:36-70 | a new shrub has exactly `thickness * numSteps = 1080` leaves in layer-major order |
| Shrubs.CreatedLeafFacts | field-c/src/_shrub.ts:48-53 | every leaf of a new shrub has rotation in [-90, 90) and palette index 0 or 1, never `cShrubC`. It sits no lower than its layer line: on it at angle 0 and 4.5 above it at angle -90 |
| Shrubs.EnsureLeaves | field-c/src/_shrub.ts:73 | absent or empty leaves are regenerated for the current canvas width; present leaves are left unchanged; afterwards leaves are present and non-empty |
| Shrubs.EnsureLeavesIdempotent | field-c/src/_shrub.ts:73 | regenerating is done at most once: a second call changes nothing, whatever its width and position |
| FrameCache.Reverse | field-c/src/_shrub.ts:130 | `renderedFrames.reverse()` keeps the length and swaps the first and last frames; `ReverseAt` states every position |
| FrameCache.ReverseAt | field-c/src/_shrub.ts:130 | reversal puts element `i` at position `length - 1 - i` |
| FrameCache.ReverseInvolutive | field-c/src/_shrub.ts:130 | reversing twice restores the bucket |
| FrameCache.ReverseMultiset | field-c/src/_shrub.ts:130 | reversing permutes the bucket: no frame is lost or duplicated |
| FrameCache.NextFrame | field-c/src/_shrub.ts:132 | the next frame index stays in [0, targetFrames) |
| FrameCache.NextFrameIsModulo | field-c/src/_shrub.ts:132 | the wrap-around advance equals `(frame + 1) % targetFrames` for every frame in range |
| FrameCache.Stored | field-c/src/_shrub.ts:129-130 | the stored bucket has the length of the filled one, and without `reverseLoop` it is the filled one |
| FrameCache.Advance | field-c/src/_shrub.ts:117-135 | a call keeps the frame in [0, targetFrames), keeps `reverseLoop` and the target, grows `renderPass` by exactly 1, and grows the bucket by one frame exactly when it draws |
| FrameCache.AdvanceSpec | field-c/src/_shrub.ts:117-132 | the frame advances and wraps. A frame is captured only when `frame >= length`, never into a full bucket, and a bucket within target stays within it. The image is absent exactly when `frame > length`; otherwise it is the frame at `frame` in the bucket plus the capture, read before any reversal. Without `reverseLoop` the capture is appended and nothing else changes |
| FrameCache.AdvanceConserves | field-c/src/_shrub.ts:119-130 | the bucket's multiset grows by the capture when the call draws and is otherwise unchanged; reversal only permutes it |
| FrameCache.AdvanceCoherent | field-c/src/_shrub.ts:117-135 | from a state where `frame <= length <= targetFrames`, that invariant is kept, a capture happens exactly when `frame == length`, and an image is always returned. With `reverseLoop`, each drawing call and each replay of the last frame reverses the bucket |
| FrameCache.FillStep | field-c/src/_shrub.ts:117-132 | one call with the frame one past the cached frames and no reversal captures, appends the capture and returns it |
| FrameCache.ReplayStep | field-c/src/_shrub.ts:117-132 | one call on a full bucket captures nothing and returns the cached frame at the current index. The bucket is kept, or reversed with `reverseLoop` on the last frame |
| FrameCache.Run | field-c/src/_shrub.ts:104-136 | a run of calls returns one image per call, keeps `reverseLoop` and the target, advances `renderPass` by the number of calls, and grows the bucket by exactly the number of captures |
| FrameCache.RunCoherent | field-c/src/_shrub.ts:117-127 | a run from a coherent state stays coherent, and every call returns an image |
| FrameCache.DrawsBounded | field-c/src/_shrub.ts:117-123 | a run never captures more frames than the target leaves room for |
| FrameCache.RunAppend | field-c/src/_shrub.ts:104-136 | running two batches of calls is running their concatenation |
| FrameCache.FillPhase | field-c/src/_shrub.ts:117-125 | without `reverseLoop`, while frames are missing every call captures. The bucket becomes the old bucket followed by the captures, which are also the images returned, and the frame index ends one past them or wraps to 0 |
| FrameCache.ReplayedSomes | field-c/src/_shrub.ts:125 | the images of a replay of `n` calls from frame `f` are the cached frames `f` to `f + n - 1`, in order |
| FrameCache.Playback | field-c/src/_shrub.ts:117-132 | once the bucket is full, calls capture nothing and return the cached frames in order from the current frame. The bucket is unchanged, or reversed if `reverseLoop` is set and the last frame was shown |
| FrameCache.PingPong | field-c/src/_shrub.ts:129-132 | with `reverseLoop` and a full bucket, two cycles from frame 0 show the frames forwards then backwards and restore the bucket |
| FrameCache.ForwardCycle | field-c/src/_shrub.ts:129-132 | one forward cycle over a full bucket with `reverseLoop` shows it in order and leaves it reversed at frame 0 |
| FrameCache.BackwardCycle | field-c/src/_shrub.ts:129-132 | a cycle over a reversed bucket shows it and restores the original order |
| FrameCache.Bucket | field-c/src/_shrub.ts:105-106 | the bucket `render` works on (created empty when the angle has none) holds at most `targetFrames` frames whenever every stored bucket does and the target is not negative |
| FrameCache.Render | field-c/src/_shrub.ts:104-136 | `render` is the cursor step on the current angle's bucket stored back under that angle. The bucket is created when missing, every other angle's bucket is unchanged, and coherence and the per-angle cap are kept |
| FrameCache.InitialLoop | field-c/src/_shrub.ts:94-102 | the initial loop is at angle 0, frame 0, no reversal, a target of 10 frames and an empty bucket, which is a coherent state |
| FrameCache.FromInitial | field-c/src/_shrub.ts:98-101 | from the initial state the first ten calls capture and return ten frames; the next ten capture nothing and return the same frames again |

## Left out

- All canvas drawing is left out, because it is foreign rendering: `beginPath`, `arcTo`, `lineTo`, `translate`, `rotate`, stroke styles, `shadowBlur`, `resetTransform`, `clearRect` and `setTransform`. That includes the draw-time rotation jitter of a shrub leaf (`field-c/src/_shrub.ts:83`).
- `getImageData` is an opaque captured value supplied per call.
- `console.error` for a missing frame is the absent image.
- The DOM and canvas setup, the ball, `requestAnimationFrame`, the `draw` loop and `performance.now` (passed in as `now`) are host glue.
- The `ShrubLoop` constructor, `init` and `createCanvas` are host glue. `rendered.rState` and `alive` are never read by `render`.
- The module-load computation of `rotGrassUp` and `rotGrassDown` (`field-b/src/app.ts:93-94`) is left out; they are a configuration value.
- `randRum` and the shrub's `deviate` live in a helper module that is not part of this model. Their values enter as `Shrubs.Jitter`.
- The colour constants `cWhite`, `cStraw` and `cStrawLight` (`field-b/src/app.ts:9-11`) are left out. The base colour of a clump is a parameter, which covers the default argument and the three call sites.
- Colour strings (`rgba(...)`, `rgb(...)`) are left out. Blades keep an `Rgba` record and leaves keep a palette index.
- Numbers are exact reals, not IEEE doubles, so rounding is not modelled.
- Deviation.Deviate: the recursive redraw is cut off at the end of the supplied stream, where the model yields `None`. `None` stands for both the stack overflow (`RangeError`) of an engine without tail-call elimination and the endless redraw of one with it; the model does not tell the two apart.
- FrameCache.Render: requires `0 <= frame < targetFrames` with `targetFrames > 0`. Every `ShrubLoop` starts in such a state (`FrameCache.InitialLoop`) and `render` keeps it. The source's `% 0` would make `frame` NaN, which is not modelled.
- FrameCache.Run: the angle is fixed over a run, as nothing in `render` changes it.
- `drawShrub` is modelled only for its regenerate-if-empty guard.

=== FILE: deviation.dfy ===
/**
 The bounded random helpers of the grass clumps: rejection-sampled
 deviation, clamping and a random sign. Every random operation consumes
 draws from an explicit stream and hands back the unused rest; a stream
 that runs out before a draw is accepted yields `None`. The source redraws
 by calling itself, so with no acceptable draw it recurses until the call
 stack overflows (a `RangeError`), or forever where tail calls are
 eliminated; `None` stands for both.
 */
module Deviation {
  import opened Prelude

  /** A sign: -1 or 1. */
  type Sign = s: int | s == -1 || s == 1 witness 1

  /** The multiplier `ran + 0.5` of a draw `ran` in [0, 1): it lies in [0.5, 1.5). */
  function Multiplier(ran: real): real {
    ran + 0.5
  }

  /** The deviation `num * multi` that a draw `ran` proposes. */
  function Scaled(num: real, ran: real): real {
    num * Multiplier(ran)
  }

  /** The two rejection tests of `deviate(num, up, low)` for draw `ran`: the
      deviation `num * (ran + 0.5)` is above `num * up` or below `num * low`. */
  predicate Rejects(num: real, up: real, low: real, ran: real) {
    Scaled(num, ran) > num * up || Scaled(num, ran) < num * low
  }

  /** When a draw is acceptable, stated on the multiplier `ran + 0.5` alone:
      within `[low, up]` for a positive base, within `[up, low]` for a
      negative one, and always for a zero base. */
  predicate Accepts(num: real, up: real, low: real, ran: real) {
    var m := Multiplier(ran);
    if num > 0.0 then low <= m <= up
    else if num < 0.0 then up <= m <= low
    else true
  }

  /** The sign of a product with a non-zero factor `a` follows the sign of `b`. */
  lemma ProductSign(a: real, b: real)
    ensures a > 0.0 ==> (a * b > 0.0 <==> b > 0.0) && (a * b < 0.0 <==> b < 0.0)
    ensures a < 0.0 ==> (a * b > 0.0 <==> b < 0.0) && (a * b < 0.0 <==> b > 0.0)
  {
  }

  /** The source's rejection tests reject exactly the draws `Accepts` refuses. */
  lemma RejectsIffNotAccepts(num: real, up: real, low: real, ran: real)
    ensures Rejects(num, up, low, ran) <==> !Accepts(num, up, low, ran)
  {
    var m := Multiplier(ran);
    assert num * m - num * up == num * (m - up);
    assert num * m - num * low == num * (m - low);
    ProductSign(num, m - up);
    ProductSign(num, m - low);
  }

  /** The position of the first acceptable draw of `rs`, or `|rs|` when
      there is none. */
  function FirstAccepted(num: real, up: real, low: real, rs: seq<real>): (k: nat)
    ensures k <= |rs|
    ensures k < |rs| ==> Accepts(num, up, low, rs[k])
    ensures forall j :: 0 <= j < k ==> !Accepts(num, up, low, rs[j])
    decreases |rs|
  {
    if |rs| == 0 then 0
    else if Accepts(num, up, low, rs[0]) then 0
    else 1 + FirstAccepted(num, up, low, rs[1..])
  }

  /** `deviate(num, up, low)`: redraw until `num * (ran + 0.5)` lies in
      `[num * low, num * up]`. Each rejected draw only causes a redraw, so the
      outcome is the first acceptable draw, scaled; with no acceptable draw
      in the stream the result is `None`. */
  function Deviate(num: real, up: real, low: real, rs: seq<real>): (r: Option<Draw<real>>)
    requires UnitDraws(rs)
    ensures var k := FirstAccepted(num, up, low, rs);
      && (r.None? <==> k == |rs|)
      && (r.Some? ==> r.value == Draw(Scaled(num, rs[k]), rs[k + 1..]))
    ensures r.Some? ==> UnitDraws(r.value.rest)
    ensures r.Some? ==> num * low <= r.value.value <= num * up
    ensures r.Some? && num > 0.0 ==> num * 0.5 <= r.value.value < num * 1.5
    decreases |rs|
  {
    if |rs| == 0 then None
    else if Scaled(num, rs[0]) > num * up || Scaled(num, rs[0]) < num * low then
      RejectsIffNotAccepts(num, up, low, rs[0]);
      UnitDrawsSuffix(rs, 1);
      var r := Deviate(num, up, low, rs[1..]);
      var k := FirstAccepted(num, up, low, rs[1..]);
      assert FirstAccepted(num, up, low, rs) == k + 1;
      assert k < |rs| - 1 ==> rs[1..][k] == rs[k + 1] && rs[1..][k + 1..] == rs[k + 2..];
      r
    else
      RejectsIffNotAccepts(num, up, low, rs[0]);
      UnitDrawsSuffix(rs, 1);
      assert FirstAccepted(num, up, low, rs) == 0;
      AcceptedBounds(num, up, low, rs[0]);
      Some(Draw(Scaled(num, rs[0]), rs[1..]))
  }

  /** An accepted draw's deviation lies in `[num * low, num * up]` and, for a
      positive base, in `[num * 0.5, num * 1.5)`. */
  lemma AcceptedBounds(num: real, up: real, low: real, ran: real)
    requires 0.0 <= ran < 1.0 && Accepts(num, up, low, ran)
    ensures num * low <= Scaled(num, ran) <= num * up
    ensures num > 0.0 ==> num * 0.5 <= Scaled(num, ran) < num * 1.5
  {
    RejectsIffNotAccepts(num, up, low, ran);
    if num > 0.0 {
      PositiveScale(num, Multiplier(ran));
    }
  }

  lemma UnitDrawsSuffix(rs: seq<real>, k: nat)
    requires UnitDraws(rs) && k <= |rs|
    ensures UnitDraws(rs[k..])
  {
    forall i | 0 <= i < |rs| - k
      ensures 0.0 <= rs[k..][i] < 1.0
    {
      assert rs[k..][i] == rs[k + i];
    }
  }

  lemma PositiveScale(num: real, m: real)
    requires num > 0.0 && 0.5 <= m < 1.5
    ensures num * 0.5 <= num * m < num * 1.5
  {
    assert num * m - num * 0.5 == num * (m - 0.5);
    assert num * 1.5 - num * m == num * (1.5 - m);
  }

  /** A positive base whose bounds admit every multiplier in [0.5, 1.5)
      takes the very first draw. */
  lemma DeviateTakesFirstDraw(num: real, up: real, low: real, rs: seq<real>)
    requires UnitDraws(rs) && |rs| > 0
    requires num > 0.0 && low <= 0.5 && 1.5 <= up
    ensures Deviate(num, up, low, rs) == Some(Draw(Scaled(num, rs[0]), rs[1..]))
  {
  }

  /** A stream whose first draw is acceptable has that draw taken, whatever
      the bounds. */
  lemma DeviateAcceptsFirst(num: real, up: real, low: real, rs: seq<real>)
    requires UnitDraws(rs) && |rs| > 0 && Accepts(num, up, low, rs[0])
    ensures Deviate(num, up, low, rs) == Some(Draw(Scaled(num, rs[0]), rs[1..]))
  {
  }

  /** A positive base whose bounds exclude all of [0.5, 1.5) never accepts a
      draw: the source recurses until the call stack overflows, or forever
      where tail calls are eliminated. */
  lemma DeviateUnsatisfiable(num: real, up: real, low: real, rs: seq<real>)
    requires UnitDraws(rs)
    requires num > 0.0 && (up < 0.5 || 1.5 <= low)
    ensures Deviate(num, up, low, rs) == None
  {
  }

  /** A negative base with `up >= 1.5` (as in `deviate(x, 1.5, 0.5)` for a
      negative `x`) never accepts a draw either. */
  lemma NegativeBaseUnsatisfiable(num: real, up: real, low: real, rs: seq<real>)
    requires UnitDraws(rs)
    requires num < 0.0 && 1.5 <= up
    ensures Deviate(num, up, low, rs) == None
  {
  }

  /** `maxMin(num, max, min)`: `Math.max(Math.min(num, max), min)`. */
  function MaxMin(num: real, max: real, min: real): (r: real)
    ensures min <= max ==> min <= r <= max
    ensures min <= num <= max ==> r == num
    ensures r == num || r == max || r == min
    ensures min <= max && num > max ==> r == max
    ensures num < min ==> r == min
  {
    var numUp := if num < max then num else max;
    if numUp > min then numUp else min
  }

  /** Clamping twice is clamping once, and clamping keeps the order of its inputs. */
  lemma MaxMinIdempotentMonotone(a: real, b: real, max: real, min: real)
    requires min <= max
    ensures MaxMin(MaxMin(a, max, min), max, min) == MaxMin(a, max, min)
    ensures a <= b ==> MaxMin(a, max, min) <= MaxMin(b, max, min)
  {
  }

  /** `flip()`: 1 when the draw exceeds 0.5, otherwise -1. */
  function Flip(rs: seq<real>): (r: Option<Draw<Sign>>)
    requires UnitDraws(rs)
    ensures r.Some? <==> |rs| > 0
    ensures r.Some? ==> r.value.rest == rs[1..] && UnitDraws(r.value.rest)
    ensures r.Some? ==> (r.value.value == 1 <==> rs[0] > 0.5)
  {
    if |rs| == 0 then None
    else Some(Draw(if rs[0] > 0.5 then 1 else -1, rs[1..]))
  }
}

=== FILE: frame_cache.dfy ===
/**
 The frame cache of `ShrubLoop.render`. Each call either draws and
 captures a new frame (when the current frame has no cached image and the
 cache is not over target) or replays a cached one; with `reverseLoop`
 set, the cached frames are reversed whenever the last of them is shown,
 so playback runs forwards and then backwards. Captured images are opaque
 values of type `F`, passed in one per call.

 `render` reads the current angle's bucket once, works on it, and stores
 it back; `Advance` is that work on a `Cursor` (the bucket and the frame
 counters), and `Render` wraps it with the per-angle store.
 */
module FrameCache {
  import opened Prelude

  /** The counters `render` updates together with the current angle's
      bucket of cached frames. */
  datatype Cursor<F> = Cursor(frame: int, renderPass: int, reverseLoop: bool, targetFrames: int, frames: seq<F>)
  {
    /** A positive target and a frame index below it. */
    ghost predicate Valid() {
      0 < targetFrames && 0 <= frame < targetFrames
    }

    /** The invariant `render` keeps: the frame index is at most one past
        the cached frames, and the bucket holds at most `targetFrames`. */
    ghost predicate Coherent() {
      Valid() && frame <= |frames| <= targetFrames
    }
  }

  /** One call on a cursor: the new cursor, the image returned (`None`
      where the source logs "no rendered frame" and returns `undefined`)
      and whether a new frame was drawn. */
  datatype Tick<F> = Tick(cursor: Cursor<F>, image: Option<F>, drew: bool)

  /** A run of calls on a cursor. */
  datatype Trace<F> = Trace(cursor: Cursor<F>, images: seq<Option<F>>, draws: nat)

  /** `Array.prototype.reverse`: the length is kept and the first and last
      elements trade places (`ReverseAt` gives every position). */
  function Reverse<F>(s: seq<F>): (r: seq<F>)
    ensures |r| == |s|
    ensures |s| > 0 ==> r[0] == s[|s| - 1] && r[|s| - 1] == s[0]
  {
    if |s| == 0 then [] else Reverse(s[1..]) + [s[0]]
  }

  /** Reversal puts element `i` at position `|s| - 1 - i`. */
  lemma {:induction false} ReverseAt<F>(s: seq<F>)
    ensures forall i :: 0 <= i < |s| ==> Reverse(s)[i] == s[|s| - 1 - i]
  {
    if |s| > 0 {
      ReverseAt(s[1..]);
      forall i | 0 <= i < |s|
        ensures Reverse(s)[i] == s[|s| - 1 - i]
      {
        if i < |s| - 1 {
          assert Reverse(s)[i] == Reverse(s[1..])[i];
        }
      }
    }
  }

  /** Reversing twice gives back the original order. */
  lemma ReverseInvolutive<F>(s: seq<F>)
    ensures Reverse(Reverse(s)) == s
  {
    var r := Reverse(Reverse(s));
    ReverseAt(s);
    ReverseAt(Reverse(s));
    assert |r| == |s|;
    forall i | 0 <= i < |s|
      ensures r[i] == s[i]
    {
      assert r[i] == Reverse(s)[|s| - 1 - i];
    }
  }

  /** Reversing keeps every frame: it permutes the bucket. */
  lemma {:induction false} ReverseMultiset<F>(s: seq<F>)
    ensures multiset(Reverse(s)) == multiset(s)
  {
    if |s| > 0 {
      ReverseMultiset(s[1..]);
      assert s == [s[0]] + s[1..];
    }
  }

  /** Each image wrapped as a present result. */
  function Somes<F>(s: seq<F>): (r: seq<Option<F>>)
    ensures |r| == |s|
    ensures forall i :: 0 <= i < |s| ==> r[i] == Some(s[i])
  {
    if |s| == 0 then [] else [Some(s[0])] + Somes(s[1..])
  }

  /** The frame counter's advance: the next frame, wrapping to 0 after
      the last. */
  function NextFrame(frame: int, targetFrames: int): (r: int)
    requires 0 <= frame < targetFrames
    ensures 0 <= r < targetFrames
  {
    if frame + 1 == targetFrames then 0 else frame + 1
  }

  /** The advance is the source's `(frame + 1) % targetFrames`. */
  lemma NextFrameIsModulo(frame: int, targetFrames: int)
    requires 0 <= frame < targetFrames
    ensures NextFrame(frame, targetFrames) == (frame + 1) % targetFrames
  {
  }

  /** Whether `render` draws: the current frame has no cached image and
      the bucket is not over target. */
  predicate Draws<F>(c: Cursor<F>) {
    !(c.frame < |c.frames|) && |c.frames| <= c.targetFrames
  }

  /** The bucket after the optional capture. */
  function Filled<F>(c: Cursor<F>, capture: F): seq<F> {
    if Draws(c) then c.frames + [capture] else c.frames
  }

  /** The bucket kept: reversed when `reverseLoop` is set and the current
      frame is the last one cached. */
  function Stored<F>(c: Cursor<F>, capture: F): (r: seq<F>)
    ensures |r| == |Filled(c, capture)|
    ensures !c.reverseLoop ==> r == Filled(c, capture)
  {
    var filled := Filled(c, capture);
    if c.reverseLoop && c.frame == |filled| - 1 then Reverse(filled) else filled
  }

  /** The body of `render` on the current angle's bucket, with `capture`
      the image `getImageData` would return after drawing. What a call
      returns is stated by `AdvanceSpec`. */
  function Advance<F>(c: Cursor<F>, capture: F): (t: Tick<F>)
    requires c.Valid()
    ensures t.cursor.Valid()
    ensures t.cursor.reverseLoop == c.reverseLoop && t.cursor.targetFrames == c.targetFrames
    ensures t.cursor.renderPass == c.renderPass + 1
    ensures |t.cursor.frames| == |c.frames| + (if t.drew then 1 else 0)
  {
    var filled := Filled(c, capture);
    var image := if c.frame < |filled| then Some(filled[c.frame]) else None;
    Tick(c.(frame := NextFrame(c.frame, c.targetFrames), renderPass := c.renderPass + 1, frames := Stored(c, capture)), image, Draws(c))
  }

  /** One call: the frame index advances and wraps. A frame is captured
      only when `frame >= length`, never into a full bucket, and a bucket
      within target stays within it. The image is absent exactly when
      `frame > length`; otherwise it is the frame at `frame` in the bucket
      extended by the capture, read before any reversal. Without
      `reverseLoop` the capture is appended. */
  lemma AdvanceSpec<F>(c: Cursor<F>, capture: F)
    requires c.Valid()
    ensures var t := Advance(c, capture);
      && t.cursor.frame == (if c.frame + 1 == c.targetFrames then 0 else c.frame + 1)
      && (t.drew ==> c.frame >= |c.frames|)
      && (|c.frames| >= c.targetFrames ==> !t.drew)
      && (|c.frames| <= c.targetFrames ==> |t.cursor.frames| <= c.targetFrames)
      && (t.image.None? <==> c.frame > |c.frames|)
      && (t.image.Some? ==> t.image.value == (c.frames + [capture])[c.frame])
      && (!c.reverseLoop ==> t.cursor.frames == if t.drew then c.frames + [capture] else c.frames)
  {
  }

  /** A call loses no cached frame: the bucket's multiset grows by the
      capture when it draws and is otherwise unchanged, reversal only
      permuting it. */
  lemma AdvanceConserves<F>(c: Cursor<F>, capture: F)
    requires c.Valid()
    ensures var t := Advance(c, capture);
      multiset(t.cursor.frames) == multiset(c.frames) + (if t.drew then multiset{capture} else multiset{})
  {
    ReverseMultiset(Filled(c, capture));
  }

  /** From a coherent cursor a call reaches a coherent cursor, draws
      exactly when the frame is one past the cached ones, and always
      returns an image: the captured one when it drew, the cached one
      otherwise. With `reverseLoop` every drawing call, and every replay of
      the last cached frame, leaves the bucket reversed. */
  lemma AdvanceCoherent<F>(c: Cursor<F>, capture: F)
    requires c.Coherent()
    ensures var t := Advance(c, capture);
      && t.cursor.Coherent()
      && (t.drew <==> c.frame == |c.frames|)
      && t.image == Some((c.frames + [capture])[c.frame])
      && (c.reverseLoop && t.drew ==> t.cursor.frames == Reverse(c.frames + [capture]))
      && (c.reverseLoop && !t.drew ==>
            t.cursor.frames == if c.frame + 1 == |c.frames| then Reverse(c.frames) else c.frames)
  {
    AdvanceSpec(c, capture);
  }

  /** A run of calls, one capture per call. */
  function Run<F>(c: Cursor<F>, caps: seq<F>): (tr: Trace<F>)
    requires c.Valid()
    ensures tr.cursor.Valid() && tr.cursor.targetFrames == c.targetFrames && tr.cursor.reverseLoop == c.reverseLoop
    ensures tr.cursor.renderPass == c.renderPass + |caps|
    ensures |tr.images| == |caps| && tr.draws <= |caps|
    ensures |tr.cursor.frames| == |c.frames| + tr.draws
    decreases |caps|
  {
    if |caps| == 0 then Trace(c, [], 0)
    else
      var t := Advance(c, caps[0]);
      var rest := Run(t.cursor, caps[1..]);
      Trace(rest.cursor, [t.image] + rest.images, (if t.drew then 1 else 0) + rest.draws)
  }

  /** A run is its first call followed by the run of the remaining calls. */
  lemma RunCons<F>(c: Cursor<F>, caps: seq<F>)
    requires c.Valid() && |caps| > 0
    ensures var t := Advance(c, caps[0]);
      var rest := Run(t.cursor, caps[1..]);
      && Run(c, caps).cursor == rest.cursor
      && Run(c, caps).images == [t.image] + rest.images
      && Run(c, caps).draws == (if t.drew then 1 else 0) + rest.draws
  {
  }

  /** A run from a coherent cursor stays coherent and returns an image on
      every call. */
  lemma {:induction false} RunCoherent<F>(c: Cursor<F>, caps: seq<F>)
    requires c.Coherent()
    ensures Run(c, caps).cursor.Coherent()
    ensures forall i :: 0 <= i < |caps| ==> Run(c, caps).images[i].Some?
    decreases |caps|
  {
    if |caps| > 0 {
      AdvanceCoherent(c, caps[0]);
      RunCoherent(Advance(c, caps[0]).cursor, caps[1..]);
    }
  }

  /** Starting from a coherent cursor the cache never draws more frames
      than its target leaves room for. */
  lemma DrawsBounded<F>(c: Cursor<F>, caps: seq<F>)
    requires c.Coherent()
    ensures Run(c, caps).draws <= c.targetFrames - |c.frames|
  {
    RunCoherent(c, caps);
  }

  /** Running two batches of calls is running their concatenation. */
  lemma {:induction false} RunAppend<F>(c: Cursor<F>, a: seq<F>, b: seq<F>)
    requires c.Valid()
    ensures var tr1 := Run(c, a);
      var tr2 := Run(tr1.cursor, b);
      Run(c, a + b) == Trace(tr2.cursor, tr1.images + tr2.images, tr1.draws + tr2.draws)
    decreases |a|
  {
    if |a| > 0 {
      var t := Advance(c, a[0]);
      ConcatTail(a, b);
      RunCons(c, a);
      RunCons(c, a + b);
      RunAppend(t.cursor, a[1..], b);
      var inner := Run(t.cursor, a[1..]);
      var tail := Run(inner.cursor, b);
      ConcatAssoc([t.image], inner.images, tail.images);
    } else {
      assert a + b == b;
    }
  }

  /** Dropping the head of a concatenation with a non-empty front. */
  lemma ConcatTail<F>(a: seq<F>, b: seq<F>)
    requires |a| > 0
    ensures (a + b)[0] == a[0] && (a + b)[1..] == a[1..] + b
  {
  }

  /** Concatenation is associative. */
  lemma ConcatAssoc<T>(x: seq<T>, y: seq<T>, z: seq<T>)
    ensures x + (y + z) == (x + y) + z
  {
  }

  /** While frames are missing (and playback is not reversed), every call
      draws: the bucket grows by exactly the captured images, which are
      the images returned. */
  lemma {:induction false} FillPhase<F>(c: Cursor<F>, caps: seq<F>)
    requires c.Coherent() && c.frame == |c.frames| && !c.reverseLoop
    requires |c.frames| + |caps| <= c.targetFrames
    ensures var tr := Run(c, caps);
      && tr.draws == |caps|
      && tr.cursor.frames == c.frames + caps
      && tr.images == Somes(caps)
      && tr.cursor.frame == if |c.frames| + |caps| == c.targetFrames then 0 else |c.frames| + |caps|
  {
    FillFrames(c, caps);
    FillEnd(c, caps);
    FillImages(c, caps);
  }

  /** The bucket part of `FillPhase`. */
  lemma {:induction false} FillFrames<F>(c: Cursor<F>, caps: seq<F>)
    requires c.Coherent() && c.frame == |c.frames| && !c.reverseLoop
    requires |c.frames| + |caps| <= c.targetFrames
    ensures Run(c, caps).cursor.frames == c.frames + caps
    decreases |caps|
  {
    if |caps| > 0 {
      FillStep(c, caps[0]);
      RunCons(c, caps);
      var u, xs := Advance(c, caps[0]).cursor, caps[1..];
      if |c.frames| + 1 < c.targetFrames {
        FillFrames(u, xs);
        AppendFirst(c.frames, caps);
      } else {
        assert xs == [];
      }
    }
  }

  /** Appending the first capture, then the rest, appends them all. */
  lemma AppendFirst<F>(a: seq<F>, caps: seq<F>)
    requires |caps| > 0
    ensures (a + [caps[0]]) + caps[1..] == a + caps
  {
    assert caps == [caps[0]] + caps[1..];
  }

  /** The frame-counter part of `FillPhase`. */
  lemma {:induction false} FillEnd<F>(c: Cursor<F>, caps: seq<F>)
    requires c.Coherent() && c.frame == |c.frames| && !c.reverseLoop
    requires |c.frames| + |caps| <= c.targetFrames
    ensures Run(c, caps).cursor.frame == if |c.frames| + |caps| == c.targetFrames then 0 else |c.frames| + |caps|
    decreases |caps|
  {
    if |caps| > 0 {
      FillStep(c, caps[0]);
      RunCons(c, caps);
      var u, xs := Advance(c, caps[0]).cursor, caps[1..];
      if |c.frames| + 1 < c.targetFrames {
        FillEnd(u, xs);
      } else {
        assert xs == [];
      }
    }
  }

  /** The image part of `FillPhase`. */
  lemma {:induction false} FillImages<F>(c: Cursor<F>, caps: seq<F>)
    requires c.Coherent() && c.frame == |c.frames| && !c.reverseLoop
    requires |c.frames| + |caps| <= c.targetFrames
    ensures Run(c, caps).images == Somes(caps)
    decreases |caps|
  {
    if |caps| > 0 {
      FillStep(c, caps[0]);
      RunCons(c, caps);
      var u, xs := Advance(c, caps[0]).cursor, caps[1..];
      assert Somes(caps) == [Some(caps[0])] + Somes(xs);
      if |c.frames| + 1 < c.targetFrames {
        FillImages(u, xs);
      } else {
        assert xs == [];
      }
    }
  }

  /** One call with the frame one past the cached ones and no reversal:
      the capture is appended and returned. */
  lemma FillStep<F>(c: Cursor<F>, capture: F)
    requires c.Coherent() && c.frame == |c.frames| && !c.reverseLoop
    ensures var t := Advance(c, capture);
      && t.drew && t.image == Some(capture) && t.cursor.Coherent()
      && t.cursor.frames == c.frames + [capture]
      && t.cursor.frame == (if c.frame + 1 == c.targetFrames then 0 else c.frame + 1)
  {
    AdvanceSpec(c, capture);
    AdvanceCoherent(c, capture);
  }

  /** Once a bucket is full, calls only replay: from frame `f`, `n` calls
      return the cached frames `f .. f + n` and draw nothing. The bucket is
      unchanged, except that with `reverseLoop` a call that shows the last
      frame leaves it reversed. */
  lemma {:induction false} Playback<F>(c: Cursor<F>, caps: seq<F>)
    requires c.Coherent() && |c.frames| == c.targetFrames
    requires c.frame + |caps| <= c.targetFrames
    ensures var tr := Run(c, caps);
      && tr.draws == 0
      && tr.images == Replayed(c.frames, c.frame, |caps|)
      && tr.cursor.frames == (if c.reverseLoop && c.frame + |caps| == c.targetFrames && |caps| > 0 then Reverse(c.frames) else c.frames)
      && tr.cursor.frame == if c.frame + |caps| == c.targetFrames then 0 else c.frame + |caps|
  {
    PlaybackImages(c, caps);
    PlaybackFrames(c, caps);
    PlaybackEnd(c, caps);
  }

  /** The images a replay of `n` calls from frame `f` returns. */
  function Replayed<F>(b: seq<F>, f: nat, n: nat): (r: seq<Option<F>>)
    requires f + n <= |b|
    ensures |r| == n
    decreases n
  {
    if n == 0 then [] else [Some(b[f])] + Replayed(b, f + 1, n - 1)
  }

  /** A replay returns the cached frames in order. */
  lemma {:induction false} ReplayedSomes<F>(b: seq<F>, f: nat, n: nat)
    requires f + n <= |b|
    ensures Replayed(b, f, n) == Somes(b[f .. f + n])
    decreases n
  {
    if n > 0 {
      ReplayedSomes(b, f + 1, n - 1);
      SliceCons(b, f, f + n);
      SomesCons(b[f], b[f + 1 .. f + n]);
    }
  }

  /** A replay of a whole bucket from frame 0 returns all of it. */
  lemma ReplayedAll<F>(b: seq<F>)
    ensures Replayed(b, 0, |b|) == Somes(b)
  {
    ReplayedSomes(b, 0, |b|);
    WholeSlice(b);
  }

  /** A non-empty slice is its first element followed by the rest. */
  lemma SliceCons<F>(b: seq<F>, i: nat, j: nat)
    requires i < j <= |b|
    ensures b[i .. j] == [b[i]] + b[i + 1 .. j]
  {
  }

  /** The image part of `Playback`. */
  lemma {:induction false} PlaybackImages<F>(c: Cursor<F>, caps: seq<F>)
    requires c.Coherent() && |c.frames| == c.targetFrames
    requires c.frame + |caps| <= c.targetFrames
    ensures Run(c, caps).images == Replayed(c.frames, c.frame, |caps|)
    decreases |caps|
  {
    if |caps| > 0 {
      var t := Advance(c, caps[0]);
      ReplayStep(c, caps[0]);
      RunCons(c, caps);
      if c.frame + 1 < c.targetFrames {
        assert t.cursor.frames == c.frames && t.cursor.frame == c.frame + 1;
        PlaybackImages(t.cursor, caps[1..]);
      } else {
        assert caps[1..] == [];
      }
    }
  }

  /** The bucket and capture-count part of `Playback`. */
  lemma {:induction false} PlaybackFrames<F>(c: Cursor<F>, caps: seq<F>)
    requires c.Coherent() && |c.frames| == c.targetFrames
    requires c.frame + |caps| <= c.targetFrames
    ensures Run(c, caps).cursor.frames == if c.reverseLoop && c.frame + |caps| == c.targetFrames && |caps| > 0 then Reverse(c.frames) else c.frames
    ensures Run(c, caps).draws == 0
    decreases |caps|
  {
    if |caps| > 0 {
      ReplayStep(c, caps[0]);
      RunCons(c, caps);
      if c.frame + 1 < c.targetFrames {
        PlaybackFrames(Advance(c, caps[0]).cursor, caps[1..]);
      } else {
        assert caps[1..] == [];
      }
    }
  }

  /** The frame-counter part of `Playback`. */
  lemma {:induction false} PlaybackEnd<F>(c: Cursor<F>, caps: seq<F>)
    requires c.Coherent() && |c.frames| == c.targetFrames
    requires c.frame + |caps| <= c.targetFrames
    ensures Run(c, caps).cursor.frame == if c.frame + |caps| == c.targetFrames then 0 else c.frame + |caps|
    decreases |caps|
  {
    if |caps| > 0 {
      ReplayStep(c, caps[0]);
      RunCons(c, caps);
      if c.frame + 1 < c.targetFrames {
        PlaybackEnd(Advance(c, caps[0]).cursor, caps[1..]);
      } else {
        assert caps[1..] == [];
      }
    }
  }

  /** Wrapping distributes over a leading element. */
  lemma SomesCons<F>(x: F, s: seq<F>)
    ensures Somes([x] + s) == [Some(x)] + Somes(s)
  {
    assert ([x] + s)[1..] == s;
  }

  /** One call on a full bucket: no capture, the cached frame at the
      current index, and the bucket kept or (with `reverseLoop`, on the
      last frame) reversed. */
  lemma ReplayStep<F>(c: Cursor<F>, capture: F)
    requires c.Coherent() && |c.frames| == c.targetFrames
    ensures var t := Advance(c, capture);
      && !t.drew && t.image == Some(c.frames[c.frame]) && t.cursor.Coherent()
      && t.cursor.frames == (if c.reverseLoop && c.frame + 1 == c.targetFrames then Reverse(c.frames) else c.frames)
      && t.cursor.frame == (if c.frame + 1 == c.targetFrames then 0 else c.frame + 1)
  {
    AdvanceSpec(c, capture);
    AdvanceCoherent(c, capture);
  }

  /** With `reverseLoop`, two full cycles over a full bucket from frame 0
      show the frames forwards and then backwards, and leave the bucket as
      it was. */
  lemma {:induction false} PingPong<F>(c: Cursor<F>, a: seq<F>, b: seq<F>)
    requires c.Coherent() && |c.frames| == c.targetFrames && c.frame == 0 && c.reverseLoop
    requires |a| == c.targetFrames && |b| == c.targetFrames
    ensures var tr := Run(c, a + b);
      && tr.draws == 0
      && tr.images == Somes(c.frames) + Somes(Reverse(c.frames))
      && tr.cursor.frames == c.frames
      && tr.cursor.frame == 0
  {
    ForwardCycle(c, a);
    BackwardCycle(Run(c, a).cursor, c.frames, b);
    RunAppend(c, a, b);
  }

  /** The first half of `PingPong`. */
  lemma {:induction false} ForwardCycle<F>(c: Cursor<F>, a: seq<F>)
    requires c.Coherent() && |c.frames| == c.targetFrames && c.frame == 0 && c.reverseLoop
    requires |a| == c.targetFrames
    ensures var tr := Run(c, a);
      && tr.draws == 0 && tr.images == Somes(c.frames) && tr.cursor.Coherent()
      && tr.cursor.frames == Reverse(c.frames) && tr.cursor.frame == 0
  {
    Playback(c, a);
    RunCoherent(c, a);
    ReplayedAll(c.frames);
  }

  /** The second half of `PingPong`, on the bucket the first half left. */
  lemma {:induction false} BackwardCycle<F>(c: Cursor<F>, bk: seq<F>, b: seq<F>)
    requires c.Coherent() && c.frames == Reverse(bk) && |bk| == c.targetFrames && c.frame == 0 && c.reverseLoop
    requires |b| == c.targetFrames
    ensures var tr := Run(c, b);
      && tr.draws == 0 && tr.images == Somes(Reverse(bk)) && tr.cursor.frames == bk && tr.cursor.frame == 0
  {
    Playback(c, b);
    ReplayedAll(Reverse(bk));
    ReverseInvolutive(bk);
  }

  /** The loop's state: the `ShrubLoop` fields `render` reads and writes.
      `rendered` is the per-angle frame store `rendered.rFrames`. */
  datatype Loop<F> = Loop(angle: int, frame: int, renderPass: int, reverseLoop: bool, targetFrames: int, rendered: map<int, seq<F>>)

  /** The outcome of `render`: the loop, the image it returns, and whether
      it drew. */
  datatype LoopOut<F> = LoopOut(loop: Loop<F>, image: Option<F>, drew: bool)

  /** The cached frames of the current angle; a missing bucket is empty.
      Under the cap every stored bucket keeps, so does the one `render`
      works on. */
  function Bucket<F>(s: Loop<F>): (b: seq<F>)
    ensures Capped(s) && s.targetFrames >= 0 ==> |b| <= s.targetFrames
  {
    if s.angle in s.rendered then s.rendered[s.angle] else []
  }

  /** The cursor `render` works on: the counters and the current bucket. */
  function CursorOf<F>(s: Loop<F>): Cursor<F> {
    Cursor(s.frame, s.renderPass, s.reverseLoop, s.targetFrames, Bucket(s))
  }

  /** No bucket of any angle holds more than `targetFrames` frames. */
  ghost predicate Capped<F>(s: Loop<F>) {
    forall a :: a in s.rendered ==> |s.rendered[a]| <= s.targetFrames
  }

  /** `ShrubLoop.render`: fetch (or create) the current angle's bucket,
      advance on it, and store it back. */
  function Render<F>(s: Loop<F>, capture: F): (out: LoopOut<F>)
    requires CursorOf(s).Valid()
    ensures var t := Advance(CursorOf(s), capture);
      && CursorOf(out.loop) == t.cursor && out.image == t.image && out.drew == t.drew
    ensures out.loop.angle == s.angle
    ensures out.loop.rendered.Keys == s.rendered.Keys + {s.angle}
    ensures forall a :: a in s.rendered && a != s.angle ==> out.loop.rendered[a] == s.rendered[a]
    ensures CursorOf(s).Coherent() && Capped(s) ==> CursorOf(out.loop).Coherent() && Capped(out.loop)
  {
    var t := Advance(CursorOf(s), capture);
    AdvanceCoherentIf(CursorOf(s), capture);
    LoopOut(Loop(s.angle, t.cursor.frame, t.cursor.renderPass, s.reverseLoop, s.targetFrames, s.rendered[s.angle := t.cursor.frames]), t.image, t.drew)
  }

  /** `AdvanceCoherent` for callers that only know the counters are valid. */
  lemma AdvanceCoherentIf<F>(c: Cursor<F>, capture: F)
    requires c.Valid()
    ensures c.Coherent() ==> Advance(c, capture).cursor.Coherent()
  {
    if c.Coherent() {
      AdvanceCoherent(c, capture);
    }
  }

  /** The initial state of a `ShrubLoop`: angle 0, frame 0, no reversal, a
      target of 10 frames and an empty bucket for angle 0. */
  function InitialLoop<F>(): (s: Loop<F>)
    ensures CursorOf(s).Coherent() && Capped(s)
    ensures Bucket(s) == [] && s.frame == 0 && !s.reverseLoop && s.targetFrames == 10
  {
    Loop(0, 0, 0, false, 10, map[0 := []])
  }

  /** From the initial state the first ten calls draw and return the ten
      captures; the next ten draw nothing and return the same captures
      again. */
  lemma {:induction false} FromInitial<F>(first: seq<F>, again: seq<F>)
    requires |first| == 10 && |again| == 10
    ensures var tr := Run(CursorOf(InitialLoop<F>()), first + again);
      && tr.draws == 10
      && tr.images == Somes(first) + Somes(first)
      && tr.cursor.frames == first
  {
    var c: Cursor<F> := Cursor(0, 0, false, 10, []);
    assert CursorOf(InitialLoop<F>()) == c;
    RunAppend(c, first, again);
    FillPhase(c, first);
    EmptyConcat(first);
    var mid := Run(c, first).cursor;
    assert mid.frames == first && mid.frame == 0;
    Playback(mid, again);
    ReplayedAll(first);
  }

  /** The empty bucket followed by `b` is `b`. */
  lemma EmptyConcat<F>(b: seq<F>)
    ensures [] + b == b
  {
  }

  /** The slice of all of `b` is `b`. */
  lemma WholeSlice<F>(b: seq<F>)
    ensures b[0 .. |b|] == b
  {
  }
}

=== FILE: frame_rate.dfy ===
/**
 The frame-rate window of `animFrames`: a queue of timestamps (in
 milliseconds) from which stale entries are dropped at the front before
 the current time is appended; the queue's length is the frame rate.
 */
module FrameRate {

  /** Length of the window in milliseconds. */
  const Window: real := 1000.0

  /** Timestamps in non-decreasing order. */
  ghost predicate Sorted(ts: seq<real>) {
    forall i, j :: 0 <= i < j < |ts| ==> ts[i] <= ts[j]
  }

  /** What remains of `ts` once front entries at or before `now - 1000`
      are dropped: a suffix of `ts`, every dropped entry stale, and the
      first kept entry (if any) fresh. */
  function Evict(ts: seq<real>, now: real): (r: seq<real>)
    ensures |r| <= |ts| && r == ts[|ts| - |r|..]
    ensures forall j :: 0 <= j < |ts| - |r| ==> ts[j] <= now - Window
    ensures |r| > 0 ==> r[0] > now - Window
    decreases |ts|
  {
    if |ts| > 0 && ts[0] <= now - Window then Evict(ts[1..], now) else ts
  }

  /** `animFrames`: drop stale timestamps from the front, append `now`, and
      report the window's length as `fps`. */
  method AnimFrames(times: seq<real>, now: real) returns (window: seq<real>, fps: nat)
    ensures window == Evict(times, now) + [now]
    ensures fps == |window| && fps >= 1
  {
    var ts := times;
    while |ts| > 0 && ts[0] <= now - Window
      invariant Evict(ts, now) == Evict(times, now)
      decreases |ts|
    {
      ts := ts[1..];
    }
    window := ts + [now];
    fps := |window|;
  }

  /** With sorted timestamps every kept entry is fresh, not just the first. */
  lemma EvictSortedAllFresh(ts: seq<real>, now: real)
    requires Sorted(ts)
    ensures forall j :: 0 <= j < |Evict(ts, now)| ==> Evict(ts, now)[j] > now - Window
  {
    var r := Evict(ts, now);
    var k := |ts| - |r|;
    forall j | 0 <= j < |r|
      ensures r[j] > now - Window
    {
      assert r[0] == ts[k] && r[j] == ts[k + j];
      assert ts[k] <= ts[k + j];
    }
  }

  /** A sorted queue stays sorted when `now` is no earlier than its last
      entry; with `EvictSortedAllFresh`, every window `animFrames` builds
      from such a queue holds only fresh entries. */
  lemma WindowStaysSorted(times: seq<real>, now: real)
    requires Sorted(times)
    requires |times| > 0 ==> times[|times| - 1] <= now
    ensures Sorted(Evict(times, now) + [now])
  {
    var r := Evict(times, now);
    SortedSuffix(times, |times| - |r|);
    if |r| > 0 {
      assert r[|r| - 1] == times[|times| - 1];
    }
    SortedAppend(r, now);
  }

  lemma SortedSuffix(ts: seq<real>, k: nat)
    requires Sorted(ts) && k <= |ts|
    ensures Sorted(ts[k..])
  {
    forall i, j | 0 <= i < j < |ts| - k
      ensures ts[k..][i] <= ts[k..][j]
    {
      assert ts[k..][i] == ts[k + i] && ts[k..][j] == ts[k + j];
    }
  }

  lemma SortedAppend(ts: seq<real>, x: real)
    requires Sorted(ts)
    requires |ts| > 0 ==> ts[|ts| - 1] <= x
    ensures Sorted(ts + [x])
  {
    var w := ts + [x];
    forall i, j | 0 <= i < j < |w|
      ensures w[i] <= w[j]
    {
      if j == |ts| {
        assert ts[i] <= ts[|ts| - 1];
      }
    }
  }
}

=== FILE: grass.dfy ===
/**
 Grass clumps: blades built from random draws, a clamped random walk of
 their control points, the bend decided by collision with scene
 presences, and the lazy fill of a clump.
 */
module Grass {
  import opened Prelude
  import opened Deviation

  /** Number of blades a clump draws each tick. */
  const NumBlades: nat := 600

  /** A scene object: a square of side `width` centred at `(x, y)`. */
  datatype Presence = Presence(x: real, y: real, width: real)

  /** The bounding box of a presence: left, right, top and bottom edges. */
  datatype Box = Box(xL: real, xR: real, zT: real, zB: real)

  /** The two bend rotations, fixed once per process. */
  datatype Config = Config(rotGrassUp: real, rotGrassDown: real)

  /** One grass blade: direction flag `xF`, height `h`, origin `(x, y)`,
      control points `(x1, y1)` and `(x2, y2)`, arc radius `rad`, colour,
      line width `lW` and rotation `rot` in degrees. */
  datatype Blade = Blade(
    xF: Sign, h: real, x: real, y: real,
    x1: real, x2: real, y1: real, y2: real,
    rad: real, c: Rgba, lW: real, rot: real)

  /** `pos`: the box of side `width` centred on the presence. */
  function Pos(o: Presence): (p: Box)
    ensures p.xR - p.xL == o.width && p.zB - p.zT == o.width
    ensures p.xL + p.xR == 2.0 * o.x && p.zT + p.zB == 2.0 * o.y
  {
    var halfWidth := o.width / 2.0;
    Box(o.x - halfWidth, o.x + halfWidth, o.y - halfWidth, o.y + halfWidth)
  }

  /** The strict inside test of `updateGrassBlade`; the edges count as outside. */
  predicate InsideBox(p: Box, x: real, y: real) {
    x > p.xL && x < p.xR && y > p.zT && y < p.zB
  }

  /** `objects.map(pos).some(...)`: some presence's box holds the point. */
  predicate Covered(objects: seq<Presence>, x: real, y: real)
    ensures Covered(objects, x, y) <==> exists i :: 0 <= i < |objects| && InsideBox(Pos(objects[i]), x, y)
    decreases |objects|
  {
    |objects| > 0 && (InsideBox(Pos(objects[0]), x, y) || Covered(objects[1..], x, y))
  }

  /** The point is closer than half a width to the presence's centre on both axes. */
  predicate StrictlyWithin(o: Presence, x: real, y: real) {
    Abs(x - o.x) < o.width / 2.0 && Abs(y - o.y) < o.width / 2.0
  }

  /** At least one presence strictly surrounds the point. */
  ghost predicate Touched(objects: seq<Presence>, x: real, y: real) {
    exists i :: 0 <= i < |objects| && StrictlyWithin(objects[i], x, y)
  }

  /** The source's box test agrees with the centre-distance reading, in
      both directions; a point on an edge is covered by no presence. */
  lemma {:induction false} CoveredIff(objects: seq<Presence>, x: real, y: real)
    ensures Covered(objects, x, y) <==> Touched(objects, x, y)
    decreases |objects|
  {
    if |objects| > 0 {
      CoveredIff(objects[1..], x, y);
      assert InsideBox(Pos(objects[0]), x, y) <==> StrictlyWithin(objects[0], x, y);
      if Touched(objects[1..], x, y) {
        var i :| 0 <= i < |objects[1..]| && StrictlyWithin(objects[1..][i], x, y);
        assert StrictlyWithin(objects[i + 1], x, y);
      }
      if Touched(objects, x, y) && !StrictlyWithin(objects[0], x, y) {
        var i :| 0 <= i < |objects| && StrictlyWithin(objects[i], x, y);
        assert i > 0 && objects[1..][i - 1] == objects[i];
      }
    }
  }

  /** The rotation the bend test picks for a blade at `(x, y)`. */
  ghost function BendFor(objects: seq<Presence>, cfg: Config, x: real, y: real): real {
    if Touched(objects, x, y) then cfg.rotGrassDown else cfg.rotGrassUp
  }

  /** `v * s` for a sign `s`. */
  function Signed(v: real, s: Sign): (r: real)
    ensures s == 1 ==> r == v
    ensures s == -1 ==> r == -v
  {
    v * (s as real)
  }

  /** What a blade keeps from its creation at origin `(x, y)` with base
      colour `rgb`: everything except `x1`, `x2` and `rot`. */
  ghost predicate FromOrigin(b: Blade, x: real, y: real, rgb: Rgb) {
    && 60.0 <= b.h < 180.0
    && b.y1 == -(b.h / 2.0) && b.y2 == -b.h
    && b.lW == 1.0
    && (x > 0.0 ==> x * 0.5 <= b.x < x * 1.5)
    && (x == 0.0 ==> b.x == 0.0)
    && 0.5 <= Abs(b.y - y) <= 1.0
    && 15.0 <= b.rad < 45.0
    && b.c.r - rgb.r == b.c.g - rgb.g == b.c.b - rgb.b
    && 2.5 <= Abs(b.c.r - rgb.r) <= 5.0
    && 0.625 <= b.c.a < 0.875
  }

  /** A newly created blade: control points on the side of `xF`, upright. */
  ghost predicate FreshBlade(b: Blade, x: real, y: real, rgb: Rgb, cfg: Config) {
    && FromOrigin(b, x, y, rgb)
    && b.x1 == 5.0 * (b.xF as real) && b.x2 == 35.0 * (b.xF as real)
    && b.rot == cfg.rotGrassUp
  }

  /** A blade of the clump at `(x, y)`: kept fields plus walk bounds. */
  ghost predicate ClumpBlade(b: Blade, x: real, y: real, rgb: Rgb) {
    && FromOrigin(b, x, y, rgb)
    && -10.0 <= b.x1 <= 10.0 && -50.0 <= b.x2 <= 50.0
  }

  /** `b'` is `b` after one update: only `x1`, `x2` and `rot` change, the
      control points stay in their ranges and the rotation is the bend
      that the presences dictate. */
  ghost predicate WalkedFrom(b: Blade, b': Blade, objects: seq<Presence>, cfg: Config) {
    && b' == b.(x1 := b'.x1, x2 := b'.x2, rot := b'.rot)
    && -10.0 <= b'.x1 <= 10.0 && -50.0 <= b'.x2 <= 50.0
    && b'.rot == BendFor(objects, cfg, b.x, b.y)
  }

  /** The origin of a new blade: `deviate(x, 1.5, 0.5)` and
      `y + deviate(1, 1, 0) * flip()`. */
  function CreateOrigin(x: real, y: real, rs: seq<real>): (r: Option<Draw<(real, real)>>)
    requires UnitDraws(rs)
    ensures r.Some? ==> UnitDraws(r.value.rest) && |r.value.rest| < |rs|
    ensures r.Some? ==> x > 0.0 ==> x * 0.5 <= r.value.value.0 < x * 1.5
    ensures r.Some? ==> x == 0.0 ==> r.value.value.0 == 0.0
    ensures r.Some? ==> 0.5 <= Abs(r.value.value.1 - y) <= 1.0
  {
    var dX :- Deviate(x, 1.5, 0.5, rs);
    var dY :- Deviate(1.0, 1.0, 0.0, dX.rest);
    var dYSign :- Flip(dY.rest);
    Some(Draw((dX.value, y + Signed(dY.value, dYSign.value)), dYSign.rest))
  }

  /** The colour of a new blade: every channel of `rgb` shifted by one
      shared `deviate(5, 1, -1) * flip()`, alpha `0.5 + deviate(0.25, 1.5, 0.5)`. */
  function CreateColour(rgb: Rgb, rs: seq<real>): (r: Option<Draw<Rgba>>)
    requires UnitDraws(rs)
    ensures r.Some? ==> UnitDraws(r.value.rest) && |r.value.rest| < |rs|
    ensures r.Some? ==> var c := r.value.value;
      && c.r - rgb.r == c.g - rgb.g == c.b - rgb.b
      && 2.5 <= Abs(c.r - rgb.r) <= 5.0
      && 0.625 <= c.a < 0.875
  {
    var rgbDev :- Deviate(5.0, 1.0, -1.0, rs);
    var rgbSign :- Flip(rgbDev.rest);
    var alpha :- Deviate(0.25, 1.5, 0.5, rgbSign.rest);
    var dev := Signed(rgbDev.value, rgbSign.value);
    Some(Draw(Rgba(rgb.r + dev, rgb.g + dev, rgb.b + dev, 0.5 + alpha.value), alpha.rest))
  }

  /** `createGrassBlade(x, y, rgbBase)`, drawing in the source's order:
      origin, `xF`, height, colour, arc radius. */
  function CreateGrassBlade(x: real, y: real, rgb: Rgb, cfg: Config, rs: seq<real>): (r: Option<Draw<Blade>>)
    requires UnitDraws(rs)
    ensures r.Some? ==> UnitDraws(r.value.rest) && |r.value.rest| < |rs|
    ensures r.Some? ==> FreshBlade(r.value.value, x, y, rgb, cfg)
  {
    var origin :- CreateOrigin(x, y, rs);
    var xF :- Flip(origin.rest);
    var h :- Deviate(120.0, 2.0, 0.3, xF.rest);
    var c :- CreateColour(rgb, h.rest);
    var rad :- Deviate(30.0, 1.5, 0.5, c.rest);
    Some(Draw(NewBlade(x, y, rgb, cfg, origin.value, xF.value, h.value, c.value, rad.value), rad.rest))
  }

  /** The blade literal of `createGrassBlade` from its drawn parts. */
  function NewBlade(x: real, y: real, rgb: Rgb, cfg: Config, origin: (real, real), xF: Sign, h: real, c: Rgba, rad: real)
    : (b: Blade)
    requires x > 0.0 ==> x * 0.5 <= origin.0 < x * 1.5
    requires x == 0.0 ==> origin.0 == 0.0
    requires 0.5 <= Abs(origin.1 - y) <= 1.0
    requires 60.0 <= h < 180.0 && 15.0 <= rad < 45.0
    requires c.r - rgb.r == c.g - rgb.g == c.b - rgb.b
    requires 2.5 <= Abs(c.r - rgb.r) <= 5.0 && 0.625 <= c.a < 0.875
    ensures FreshBlade(b, x, y, rgb, cfg)
  {
    Blade(
      xF, h, origin.0, origin.1,
      5.0 * (xF as real), 35.0 * (xF as real),
      -(h / 2.0), -h,
      rad, c, 1.0, cfg.rotGrassUp)
  }

  /** The control points of a new blade lie on the side its flag `xF` names. */
  lemma FreshBladeSides(b: Blade, x: real, y: real, rgb: Rgb, cfg: Config)
    requires FreshBlade(b, x, y, rgb, cfg)
    ensures b.xF == 1 ==> 0.0 < b.x1 < b.x2
    ensures b.xF == -1 ==> b.x2 < b.x1 < 0.0
  {
  }

  /** A blade at a negative origin is never created: `deviate(x, 1.5, 0.5)`
      rejects every draw when `x < 0`. */
  lemma NegativeOriginNeverCreates(x: real, y: real, rgb: Rgb, cfg: Config, rs: seq<real>)
    requires UnitDraws(rs) && x < 0.0
    ensures CreateGrassBlade(x, y, rgb, cfg, rs).None?
  {
    NegativeBaseUnsatisfiable(x, 1.5, 0.5, rs);
  }

  /** The random-walk step `deviate(0.5, 1, -1) * flip()`. */
  function WalkShift(rs: seq<real>): (r: Option<Draw<real>>)
    requires UnitDraws(rs)
    ensures r.Some? ==> UnitDraws(r.value.rest) && |r.value.rest| < |rs|
    ensures r.Some? ==> 0.25 <= Abs(r.value.value) <= 0.5
  {
    var d :- Deviate(0.5, 1.0, -1.0, rs);
    var s :- Flip(d.rest);
    Some(Draw(Signed(d.value, s.value), s.rest))
  }

  /** `b'` moves both control points of `b` by the same shift `s`, each
      clamped to its range, and the shift has magnitude in [0.25, 0.5]. */
  ghost predicate SharedShift(b: Blade, b': Blade, s: real) {
    && 0.25 <= Abs(s) <= 0.5
    && b'.x1 == MaxMin(b.x1 + s, 10.0, -10.0)
    && b'.x2 == MaxMin(b.x2 + s, 50.0, -50.0)
  }

  /** `updateGrassBlade(b, objects)`: walk both control points by one shared
      shift, clamp them, and pick the bend. */
  function UpdateGrassBlade(b: Blade, objects: seq<Presence>, cfg: Config, rs: seq<real>): (r: Option<Draw<Blade>>)
    requires UnitDraws(rs)
    ensures r.Some? ==> UnitDraws(r.value.rest) && |r.value.rest| < |rs|
    ensures r.Some? ==> WalkedFrom(b, r.value.value, objects, cfg)
    ensures r.Some? ==> WalkShift(rs).Some? && SharedShift(b, r.value.value, WalkShift(rs).value.value)
    ensures r.Some? && -9.5 <= b.x1 <= 9.5 && -49.5 <= b.x2 <= 49.5 ==>
      var b' := r.value.value;
      b'.x1 - b.x1 == b'.x2 - b.x2 && 0.25 <= Abs(b'.x1 - b.x1) <= 0.5
    ensures r.Some? && -10.0 <= b.x1 <= 10.0 ==> Abs(r.value.value.x1 - b.x1) <= 0.5
    ensures r.Some? && -50.0 <= b.x2 <= 50.0 ==> Abs(r.value.value.x2 - b.x2) <= 0.5
  {
    var shift :- WalkShift(rs);
    var x1 := MaxMin(b.x1 + shift.value, 10.0, 0.0 - 10.0);
    var x2 := MaxMin(b.x2 + shift.value, 50.0, 0.0 - 50.0);
    CoveredIff(objects, b.x, b.y);
    var rot := if Covered(objects, b.x, b.y) then cfg.rotGrassDown else cfg.rotGrassUp;
    var b' := b.(x1 := x1, x2 := x2, rot := rot);
    assert SharedShift(b, b', shift.value);
    Some(Draw(b', shift.rest))
  }

  /** A walked blade stays a blade of its clump. */
  lemma WalkKeepsClumpBlade(b: Blade, b': Blade, objects: seq<Presence>, cfg: Config, x: real, y: real, rgb: Rgb)
    requires FromOrigin(b, x, y, rgb) && WalkedFrom(b, b', objects, cfg)
    ensures ClumpBlade(b', x, y, rgb)
  {
  }

  /** `count` blades created one after another, as the fill loop pushes them. */
  function CreateBlades(count: nat, x: real, y: real, rgb: Rgb, cfg: Config, rs: seq<real>): (r: Option<Draw<seq<Blade>>>)
    requires UnitDraws(rs)
    ensures r.Some? ==> UnitDraws(r.value.rest) && |r.value.rest| + count <= |rs|
    ensures r.Some? ==> |r.value.value| == count
    ensures r.Some? ==> forall j :: 0 <= j < count ==> FreshBlade(r.value.value[j], x, y, rgb, cfg)
    decreases count
  {
    if count == 0 then Some(Draw([], rs))
    else
      var first :- CreateGrassBlade(x, y, rgb, cfg, rs);
      var more :- CreateBlades(count - 1, x, y, rgb, cfg, first.rest);
      Some(Draw([first.value] + more.value, more.rest))
  }

  /** The update loop: blades `from .. upto - 1` are updated in index order. */
  function UpdateRange(blades: seq<Blade>, from: nat, upto: nat, objects: seq<Presence>, cfg: Config, rs: seq<real>)
    : (r: Option<Draw<seq<Blade>>>)
    requires from <= upto <= |blades| && UnitDraws(rs)
    ensures r.Some? ==> UnitDraws(r.value.rest) && |r.value.value| == |blades|
    ensures r.Some? ==> forall j :: 0 <= j < |blades| && !(from <= j < upto) ==> r.value.value[j] == blades[j]
    ensures r.Some? ==> forall j :: from <= j < upto ==> WalkedFrom(blades[j], r.value.value[j], objects, cfg)
    decreases upto - from
  {
    if from == upto then Some(Draw(blades, rs))
    else
      var b :- UpdateGrassBlade(blades[from], objects, cfg, rs);
      UpdateRange(blades[from := b.value], from + 1, upto, objects, cfg, b.rest)
  }

  /** The lazy fill of `drawGrassBlades`: with at most `NumBlades` blades
      (note `<=`), another `NumBlades` fresh blades are appended. */
  function Fill(blades: seq<Blade>, x: real, y: real, rgb: Rgb, cfg: Config, rs: seq<real>): (r: Option<Draw<seq<Blade>>>)
    requires UnitDraws(rs)
    ensures r.Some? ==> UnitDraws(r.value.rest)
    ensures r.Some? ==> |r.value.value| == (if |blades| <= NumBlades then |blades| + NumBlades else |blades|)
    ensures r.Some? ==> r.value.value[..|blades|] == blades
    ensures r.Some? ==> forall j :: |blades| <= j < |r.value.value| ==> FreshBlade(r.value.value[j], x, y, rgb, cfg)
  {
    if |blades| <= NumBlades then
      var added :- CreateBlades(NumBlades, x, y, rgb, cfg, rs);
      Some(Draw(blades + added.value, added.rest))
    else
      Some(Draw(blades, rs))
  }

  /** `drawGrassBlades` without the canvas: fill lazily, then update the
      first `NumBlades` blades. */
  function DrawGrassBlades(blades: seq<Blade>, x: real, y: real, rgb: Rgb, objects: seq<Presence>, cfg: Config, rs: seq<real>)
    : (r: Option<Draw<seq<Blade>>>)
    requires UnitDraws(rs)
    ensures r.Some? ==> UnitDraws(r.value.rest)
    ensures r.Some? ==> |r.value.value| == (if |blades| <= NumBlades then |blades| + NumBlades else |blades|)
    ensures r.Some? ==> forall j :: NumBlades <= j < |blades| ==> r.value.value[j] == blades[j]
    ensures r.Some? ==> forall j :: 0 <= j < NumBlades && j < |blades| ==> WalkedFrom(blades[j], r.value.value[j], objects, cfg)
    ensures r.Some? ==> forall j :: |blades| <= j < |r.value.value| ==> ClumpBlade(r.value.value[j], x, y, rgb)
    ensures r.Some? ==> forall j :: |blades| <= j < NumBlades ==>
      r.value.value[j].rot == BendFor(objects, cfg, r.value.value[j].x, r.value.value[j].y)
    ensures r.Some? ==> forall j :: NumBlades <= j < |r.value.value| && |blades| <= j ==>
      FreshBlade(r.value.value[j], x, y, rgb, cfg)
  {
    var filled :- Fill(blades, x, y, rgb, cfg, rs);
    var r := UpdateRange(filled.value, 0, NumBlades, objects, cfg, filled.rest);
    if r.Some? then
      FilledThenUpdated(blades, filled.value, r.value.value, x, y, rgb, objects, cfg);
      r
    else
      r
  }

  /** The bookkeeping behind `DrawGrassBlades`: what the fill keeps and adds,
      followed by what the update changes. */
  lemma FilledThenUpdated(
    blades: seq<Blade>, filled: seq<Blade>, updated: seq<Blade>,
    x: real, y: real, rgb: Rgb, objects: seq<Presence>, cfg: Config)
    requires |filled| == (if |blades| <= NumBlades then |blades| + NumBlades else |blades|)
    requires filled[..|blades|] == blades
    requires forall j :: |blades| <= j < |filled| ==> FreshBlade(filled[j], x, y, rgb, cfg)
    requires |updated| == |filled|
    requires forall j :: NumBlades <= j < |filled| ==> updated[j] == filled[j]
    requires forall j :: 0 <= j < NumBlades ==> WalkedFrom(filled[j], updated[j], objects, cfg)
    ensures forall j :: NumBlades <= j < |blades| ==> updated[j] == blades[j]
    ensures forall j :: 0 <= j < NumBlades && j < |blades| ==> WalkedFrom(blades[j], updated[j], objects, cfg)
    ensures forall j :: |blades| <= j < |updated| ==> ClumpBlade(updated[j], x, y, rgb)
    ensures forall j :: |blades| <= j < NumBlades ==> updated[j].rot == BendFor(objects, cfg, updated[j].x, updated[j].y)
    ensures forall j :: NumBlades <= j < |updated| && |blades| <= j ==> FreshBlade(updated[j], x, y, rgb, cfg)
  {
    assert forall j :: 0 <= j < |blades| ==> filled[j] == blades[j] by {
      assert forall j :: 0 <= j < |blades| ==> filled[..|blades|][j] == filled[j];
    }
    forall j | |blades| <= j < |updated|
      ensures ClumpBlade(updated[j], x, y, rgb)
    {
      if j < NumBlades {
        WalkKeepsClumpBlade(filled[j], updated[j], objects, cfg, x, y, rgb);
      }
    }
  }

  /** From an empty clump the blade array holds `NumBlades` blades after the
      first draw and `2 * NumBlades` after the second, and no later draw
      changes that. */
  lemma ClumpGrowth(x: real, y: real, rgb: Rgb, objects: seq<Presence>, cfg: Config, rs: seq<real>)
    requires UnitDraws(rs)
    ensures var r1 := DrawGrassBlades([], x, y, rgb, objects, cfg, rs);
      r1.Some? ==> (
        && |r1.value.value| == NumBlades
        && var r2 := DrawGrassBlades(r1.value.value, x, y, rgb, objects, cfg, r1.value.rest);
        r2.Some? ==> (
          && |r2.value.value| == 2 * NumBlades
          && var r3 := DrawGrassBlades(r2.value.value, x, y, rgb, objects, cfg, r2.value.rest);
          r3.Some? ==> |r3.value.value| == 2 * NumBlades))
  {
  }

  /** Draws no greater than 0.5: the multiplier `ran + 0.5` is then at most
      1, which every deviation of a blade and of a walk accepts. */
  ghost predicate LowDraws(rs: seq<real>) {
    UnitDraws(rs) && forall i :: 0 <= i < |rs| ==> rs[i] <= 0.5
  }

  /** Dropping `j` draws after dropping `i` drops `i + j`. */
  lemma SuffixOfSuffix(rs: seq<real>, i: nat, j: nat)
    requires i + j <= |rs|
    ensures rs[i..][j..] == rs[i + j..]
  {
  }

  /** What remains of a stream of low draws is one too. */
  lemma LowDrawsSuffix(rs: seq<real>, k: nat)
    requires LowDraws(rs) && k <= |rs|
    ensures LowDraws(rs[k..])
  {
    assert forall i :: 0 <= i < |rs| - k ==> rs[k..][i] == rs[k + i];
  }

  /** The origin of a blade at a non-negative `x` takes exactly three low draws. */
  lemma CreateOriginSucceeds(x: real, y: real, rs: seq<real>)
    requires LowDraws(rs) && |rs| >= 3 && x >= 0.0
    ensures CreateOrigin(x, y, rs).Some? && CreateOrigin(x, y, rs).value.rest == rs[3..]
  {
    assert Accepts(x, 1.5, 0.5, rs[0]) by { assert rs[0] <= 0.5; }
    DeviateAcceptsFirst(x, 1.5, 0.5, rs);
    LowDrawsSuffix(rs, 1);
    assert Accepts(1.0, 1.0, 0.0, rs[1..][0]) by { assert rs[1..][0] == rs[1] <= 0.5; }
    DeviateAcceptsFirst(1.0, 1.0, 0.0, rs[1..]);
    assert rs[1..][1..] == rs[2..];
    assert Flip(rs[2..]).value.rest == rs[3..] by { assert rs[2..][1..] == rs[3..]; }
  }

  /** The colour of a blade takes exactly three low draws. */
  lemma CreateColourSucceeds(rgb: Rgb, rs: seq<real>)
    requires LowDraws(rs) && |rs| >= 3
    ensures CreateColour(rgb, rs).Some? && CreateColour(rgb, rs).value.rest == rs[3..]
  {
    assert Accepts(5.0, 1.0, -1.0, rs[0]) by { assert rs[0] <= 0.5; }
    DeviateAcceptsFirst(5.0, 1.0, -1.0, rs);
    assert Flip(rs[1..]).value.rest == rs[2..] by { assert rs[1..][1..] == rs[2..]; }
    LowDrawsSuffix(rs, 2);
    assert Accepts(0.25, 1.5, 0.5, rs[2..][0]);
    DeviateAcceptsFirst(0.25, 1.5, 0.5, rs[2..]);
    assert rs[2..][1..] == rs[3..];
  }

  /** A blade at a non-negative `x` is created from exactly nine low draws. */
  lemma CreateGrassBladeSucceeds(x: real, y: real, rgb: Rgb, cfg: Config, rs: seq<real>)
    requires LowDraws(rs) && |rs| >= 9 && x >= 0.0
    ensures CreateGrassBlade(x, y, rgb, cfg, rs).Some?
    ensures CreateGrassBlade(x, y, rgb, cfg, rs).value.rest == rs[9..]
  {
    CreateOriginSucceeds(x, y, rs);
    assert Flip(rs[3..]).value.rest == rs[4..] by { assert rs[3..][1..] == rs[4..]; }
    LowDrawsSuffix(rs, 4);
    assert Accepts(120.0, 2.0, 0.3, rs[4..][0]);
    DeviateAcceptsFirst(120.0, 2.0, 0.3, rs[4..]);
    assert rs[4..][1..] == rs[5..];
    LowDrawsSuffix(rs, 5);
    CreateColourSucceeds(rgb, rs[5..]);
    assert rs[5..][3..] == rs[8..];
    LowDrawsSuffix(rs, 8);
    assert Accepts(30.0, 1.5, 0.5, rs[8..][0]);
    DeviateAcceptsFirst(30.0, 1.5, 0.5, rs[8..]);
    assert rs[8..][1..] == rs[9..];
  }

  /** One update of a blade takes exactly two low draws. */
  lemma UpdateGrassBladeSucceeds(b: Blade, objects: seq<Presence>, cfg: Config, rs: seq<real>)
    requires LowDraws(rs) && |rs| >= 2
    ensures UpdateGrassBlade(b, objects, cfg, rs).Some?
    ensures UpdateGrassBlade(b, objects, cfg, rs).value.rest == rs[2..]
  {
    WalkShiftSucceeds(rs);
  }

  /** A walk step takes exactly two low draws. */
  lemma WalkShiftSucceeds(rs: seq<real>)
    requires LowDraws(rs) && |rs| >= 2
    ensures WalkShift(rs).Some? && WalkShift(rs).value.rest == rs[2..]
  {
    assert Accepts(0.5, 1.0, -1.0, rs[0]) by { assert rs[0] <= 0.5; }
    DeviateAcceptsFirst(0.5, 1.0, -1.0, rs);
    assert Flip(rs[1..]).value.rest == rs[2..] by { assert rs[1..][1..] == rs[2..]; }
  }

  /** `count` blades at a non-negative `x` take exactly `9 * count` low draws. */
  lemma {:induction false} CreateBladesSucceeds(count: nat, x: real, y: real, rgb: Rgb, cfg: Config, rs: seq<real>)
    requires LowDraws(rs) && |rs| >= 9 * count && x >= 0.0
    ensures CreateBlades(count, x, y, rgb, cfg, rs).Some?
    ensures CreateBlades(count, x, y, rgb, cfg, rs).value.rest == rs[9 * count..]
    decreases count
  {
    if count > 0 {
      CreateGrassBladeSucceeds(x, y, rgb, cfg, rs);
      LowDrawsSuffix(rs, 9);
      CreateBladesSucceeds(count - 1, x, y, rgb, cfg, rs[9..]);
      SuffixOfSuffix(rs, 9, 9 * (count - 1));
    }
  }

  /** Updating blades `from .. upto - 1` takes exactly two low draws each. */
  lemma {:induction false} UpdateRangeSucceeds(
    blades: seq<Blade>, from: nat, upto: nat, objects: seq<Presence>, cfg: Config, rs: seq<real>)
    requires from <= upto <= |blades| && LowDraws(rs) && |rs| >= 2 * (upto - from)
    ensures UpdateRange(blades, from, upto, objects, cfg, rs).Some?
    ensures UpdateRange(blades, from, upto, objects, cfg, rs).value.rest == rs[2 * (upto - from)..]
    decreases upto - from
  {
    if from < upto {
      UpdateGrassBladeSucceeds(blades[from], objects, cfg, rs);
      var b := UpdateGrassBlade(blades[from], objects, cfg, rs).value.value;
      UpdateRangeStep(blades, from, upto, objects, cfg, rs);
      LowDrawsSuffix(rs, 2);
      UpdateRangeSucceeds(blades[from := b], from + 1, upto, objects, cfg, rs[2..]);
      SuffixOfSuffix(rs, 2, 2 * (upto - from - 1));
    }
  }

  /** One step of the update loop: a successful update of blade `from`
      hands its blade and its rest to the loop over the remaining blades. */
  lemma UpdateRangeStep(blades: seq<Blade>, from: nat, upto: nat, objects: seq<Presence>, cfg: Config, rs: seq<real>)
    requires from < upto <= |blades| && UnitDraws(rs)
    requires UpdateGrassBlade(blades[from], objects, cfg, rs).Some?
    ensures var u := UpdateGrassBlade(blades[from], objects, cfg, rs).value;
      UpdateRange(blades, from, upto, objects, cfg, rs) == UpdateRange(blades[from := u.value], from + 1, upto, objects, cfg, u.rest)
  {
  }

  /** The number of draws one `drawGrassBlades` on `blades` takes: nine for
      each of the `NumBlades` new blades when it fills, and two for each of
      the `NumBlades` walked blades. */
  function DrawsUsed(blades: seq<Blade>): (n: nat)
    ensures n == 11 * NumBlades || n == 2 * NumBlades
  {
    (if |blades| <= NumBlades then 9 * NumBlades else 0) + 2 * NumBlades
  }

  /** The lazy fill succeeds on enough low draws and takes `9 * NumBlades`
      of them exactly when it fills. */
  lemma FillSucceeds(blades: seq<Blade>, x: real, y: real, rgb: Rgb, cfg: Config, rs: seq<real>)
    requires LowDraws(rs) && |rs| >= DrawsUsed(blades) - 2 * NumBlades && x >= 0.0
    ensures Fill(blades, x, y, rgb, cfg, rs).Some?
    ensures Fill(blades, x, y, rgb, cfg, rs).value.rest == rs[DrawsUsed(blades) - 2 * NumBlades..]
  {
    if |blades| <= NumBlades {
      CreateBladesSucceeds(NumBlades, x, y, rgb, cfg, rs);
    }
  }

  /** `DrawGrassBlades` after a successful fill is the update loop over it. */
  lemma DrawGrassBladesUnfold(
    blades: seq<Blade>, x: real, y: real, rgb: Rgb, objects: seq<Presence>, cfg: Config, rs: seq<real>)
    requires UnitDraws(rs) && Fill(blades, x, y, rgb, cfg, rs).Some?
    ensures var f := Fill(blades, x, y, rgb, cfg, rs).value;
      && NumBlades <= |f.value|
      && DrawGrassBlades(blades, x, y, rgb, objects, cfg, rs) == UpdateRange(f.value, 0, NumBlades, objects, cfg, f.rest)
  {
  }

  /** A draw of a clump at a non-negative `x` succeeds on `DrawsUsed(blades)`
      low draws and takes exactly that many. */
  lemma DrawGrassBladesSucceeds(
    blades: seq<Blade>, x: real, y: real, rgb: Rgb, objects: seq<Presence>, cfg: Config, rs: seq<real>)
    requires LowDraws(rs) && |rs| >= DrawsUsed(blades) && x >= 0.0
    ensures DrawGrassBlades(blades, x, y, rgb, objects, cfg, rs).Some?
    ensures DrawGrassBlades(blades, x, y, rgb, objects, cfg, rs).value.rest == rs[DrawsUsed(blades)..]
  {
    var used := DrawsUsed(blades) - 2 * NumBlades;
    FillSucceeds(blades, x, y, rgb, cfg, rs);
    DrawGrassBladesUnfold(blades, x, y, rgb, objects, cfg, rs);
    var filled := Fill(blades, x, y, rgb, cfg, rs).value;
    LowDrawsSuffix(rs, used);
    UpdateRangeSucceeds(filled.value, 0, NumBlades, objects, cfg, rs[used..]);
    SuffixOfSuffix(rs, used, 2 * NumBlades);
  }

  /** The three draws of `ClumpGrowth` all succeed on `24 * NumBlades` low
      draws (two fills and three walks), so its chain of growth facts is
      reached. */
  lemma ClumpGrowthReached(x: real, y: real, rgb: Rgb, objects: seq<Presence>, cfg: Config, rs: seq<real>)
    requires LowDraws(rs) && |rs| >= 24 * NumBlades && x >= 0.0
    ensures var r1 := DrawGrassBlades([], x, y, rgb, objects, cfg, rs);
      && r1.Some?
      && var r2 := DrawGrassBlades(r1.value.value, x, y, rgb, objects, cfg, r1.value.rest);
      && r2.Some?
      && DrawGrassBlades(r2.value.value, x, y, rgb, objects, cfg, r2.value.rest).Some?
  {
    var r1 := GrowOnce([], x, y, rgb, objects, cfg, rs);
    var r2 := GrowOnce(r1.value, x, y, rgb, objects, cfg, r1.rest);
    SuffixOfSuffix(rs, 11 * NumBlades, 11 * NumBlades);
    LowDrawsSuffix(rs, 22 * NumBlades);
    DrawGrassBladesSucceeds(r2.value, x, y, rgb, objects, cfg, r2.rest);
  }

  /** One growing draw of a clump of at most `NumBlades` blades: it succeeds
      on `11 * NumBlades` low draws and leaves `NumBlades` more blades and the
      remaining low draws. */
  lemma GrowOnce(blades: seq<Blade>, x: real, y: real, rgb: Rgb, objects: seq<Presence>, cfg: Config, rs: seq<real>)
    returns (r: Draw<seq<Blade>>)
    requires |blades| <= NumBlades && LowDraws(rs) && |rs| >= 11 * NumBlades && x >= 0.0
    ensures DrawGrassBlades(blades, x, y, rgb, objects, cfg, rs) == Some(r)
    ensures |r.value| == |blades| + NumBlades && r.rest == rs[11 * NumBlades..] && LowDraws(r.rest)
  {
    DrawGrassBladesSucceeds(blades, x, y, rgb, objects, cfg, rs);
    r := DrawGrassBlades(blades, x, y, rgb, objects, cfg, rs).value;
    LowDrawsSuffix(rs, 11 * NumBlades);
  }
}

=== FILE: prelude.dfy ===
/**
 Shared vocabulary: an Option that works with `:-`, the `Draw` record that
 threads a stream of random draws through every random operation, and the
 colour records of the renderer.
 */
module Prelude {

  /** An optional value; `None` reports a failure (here: the draws ran out). */
  datatype Option<+T> = None | Some(value: T) {

    // `var v :- e;` stops at the first `None` and otherwise binds the value;
    // these three members are what that operator looks for.
    predicate IsFailure() {
      None?
    }

    function PropagateFailure<U>(): Option<U>
      requires None?
    {
      None
    }

    function Extract(): T
      requires Some?
    {
      value
    }
  }

  /** A value obtained from a stream of random draws, together with the
      draws that are still unused. */
  datatype Draw<+T> = Draw(value: T, rest: seq<real>)

  /** Every draw of `Math.random` lies in [0, 1). */
  ghost predicate UnitDraws(rs: seq<real>) {
    forall i :: 0 <= i < |rs| ==> 0.0 <= rs[i] < 1.0
  }

  function Abs(r: real): real {
    if r < 0.0 then -r else r
  }

  /** A colour with three channels (the source's `RGB` tuple). */
  datatype Rgb = Rgb(r: real, g: real, b: real)

  /** A colour with an alpha channel (what an `rgba(...)` style string encodes). */
  datatype Rgba = Rgba(r: real, g: real, b: real, a: real)
}

=== FILE: shrub.dfy ===
/**
 Shrub geometry: a grid of leaves, `Thickness` layers by `NumSteps`
 one-degree angles per layer, and the "regenerate if empty" guard of
 `drawShrub`. The two per-leaf jitters (a horizontal `randRum(2, -2)` and a
 height deviation) come from helpers outside this model and are inputs.
 */
module Shrubs {
  import opened Prelude

  const RotStart: int := -90
  const RotEnd: int := -RotStart
  /** `rotEnd - rotStart`, the angles per layer; written as the literal so
      that `u * NumSteps + j` stays linear arithmetic for the solver
      (`NumStepsIsAngleSpan` checks the two agree). */
  const NumSteps: int := 180
  const Thickness: int := 6
  const DefaultWidth: real := 120.0
  const Height: real := 60.0
  const HeightSag: real := 5.0

  /** The literal `NumSteps` is the span from `RotStart` to `RotEnd`. */
  lemma NumStepsIsAngleSpan()
    ensures NumSteps == RotEnd - RotStart
  {
  }

  /** The shrub palette `cShrubs`. */
  const Palette: seq<Rgba> := [Rgba(33.0, 29.0, 16.0, 0.3), Rgba(43.0, 42.0, 25.0, 0.3), Rgba(55.0, 50.0, 32.0, 0.3)]

  /** A leaf: position, height, palette index and stored rotation in degrees. */
  datatype Leaf = Leaf(x: real, y: real, h: real, c: nat, rot: int)

  /** A shrub whose leaves may be absent. */
  datatype Shrub = Shrub(leaves: Option<seq<Leaf>>)

  /** The jitter a leaf receives, by layer and angle: `dx` is added to its
      horizontal position and `dh` taken from its height. */
  datatype Jitter = Jitter(dx: (int, int) -> real, dh: (int, int) -> real)

  function Min(a: real, b: real): real {
    if a <= b then a else b
  }

  /** The leaf at angle position `k` of layer `tI`, as the inner loop of
      `createShrub` builds it for the angle `i = RotStart + k`. */
  function LeafAt(width: real, x: real, y: real, tI: nat, k: nat, jitter: Jitter): (leaf: Leaf)
    requires k < NumSteps
    ensures leaf.rot == RotStart + k && -90 <= leaf.rot < 90
    ensures leaf.x == x + width / 2.0 + (Min(120.0, width * 0.7) - 2.0 * tI as real) / NumSteps as real * leaf.rot as real
                      + jitter.dx(tI, leaf.rot) + 0.5
    ensures leaf.c == (tI + k) % 2 && leaf.c < |Palette| - 1
    ensures leaf.y == y + tI as real + 0.5 - Abs(leaf.rot as real) / 20.0
    ensures leaf.h == 60.0 - 10.0 * tI as real - jitter.dh(tI, leaf.rot) - Abs(leaf.rot as real) / 20.0
  {
    var i := RotStart + k;
    var canvasCenter := x + width / 2.0;
    var shrubWidth := Min(DefaultWidth, width * 0.7);
    var offset := (tI * 2) as real;
    var baseWidth := shrubWidth - offset;
    var baseHeight := Height - (Height / Thickness as real) * tI as real;
    var sX := canvasCenter + (baseWidth / NumSteps as real * i as real) + jitter.dx(tI, i);
    var curveI := if i < 0 then i else -i;
    var curveY := HeightSag / (NumSteps as real / 2.0) * curveI as real - (curveI as real / NumSteps as real);
    var sH := baseHeight - jitter.dh(tI, i) + curveY;
    Leaf(sX + 0.5, y + tI as real + curveY + 0.5, sH, (tI + k) % (|Palette| - 1), i)
  }

  /** The first `k` leaves of layer `tI`, in the order they are pushed. */
  function LayerLeaves(width: real, x: real, y: real, tI: nat, k: nat, jitter: Jitter): (r: seq<Leaf>)
    requires k <= NumSteps
    ensures |r| == k
    ensures forall j :: 0 <= j < k ==> r[j] == LeafAt(width, x, y, tI, j, jitter)
  {
    if k == 0 then [] else LayerLeaves(width, x, y, tI, k - 1, jitter) + [LeafAt(width, x, y, tI, k - 1, jitter)]
  }

  /** The leaves of the first `t` layers, layer after layer. */
  function ShrubLeaves(width: real, x: real, y: real, t: nat, jitter: Jitter): (r: seq<Leaf>)
    requires t <= Thickness
    ensures |r| == t * NumSteps
    ensures forall u, j :: 0 <= u < t && 0 <= j < NumSteps ==> r[u * NumSteps + j] == LeafAt(width, x, y, u, j, jitter)
  {
    if t == 0 then []
    else
      var prev := ShrubLeaves(width, x, y, t - 1, jitter);
      var layer := LayerLeaves(width, x, y, t - 1, NumSteps, jitter);
      assert forall n :: 0 <= n < |prev| ==> (prev + layer)[n] == prev[n];
      assert forall j :: 0 <= j < NumSteps ==> (prev + layer)[(t - 1) * NumSteps + j] == layer[j];
      prev + layer
  }

  /** `createShrub(width, x, y)`: `Thickness * NumSteps` leaves in
      layer-major order. */
  function CreateShrub(width: real, x: real, y: real, jitter: Jitter): (s: Shrub)
    ensures s.leaves.Some? && |s.leaves.value| == Thickness * NumSteps == 1080
    ensures forall u, j :: 0 <= u < Thickness && 0 <= j < NumSteps ==>
      s.leaves.value[u * NumSteps + j] == LeafAt(width, x, y, u, j, jitter)
  {
    Shrub(Some(ShrubLeaves(width, x, y, Thickness, jitter)))
  }

  /** Every leaf of a new shrub has an integer rotation in [-90, 90), a
      palette index of 0 or 1 (the third palette entry is never used), and
      sits no lower than its layer's line `y + tI + 0.5`, exactly on it at
      angle 0 and 4.5 above it at angle -90. */
  lemma CreatedLeafFacts(width: real, x: real, y: real, jitter: Jitter, n: nat)
    requires n < Thickness * NumSteps
    ensures var leaf := CreateShrub(width, x, y, jitter).leaves.value[n];
      && -90 <= leaf.rot < 90
      && (leaf.c == 0 || leaf.c == 1)
      && Palette[leaf.c] != Palette[2]
      && leaf.y <= y + (n / NumSteps) as real + 0.5
      && (leaf.rot == 0 ==> leaf.y == y + (n / NumSteps) as real + 0.5)
      && (leaf.rot == -90 ==> leaf.y == y + (n / NumSteps) as real + 0.5 - 4.5)
  {
    var u, j := n / NumSteps, n % NumSteps;
    assert n == u * NumSteps + j;
    var leaf := LeafAt(width, x, y, u, j, jitter);
    assert CreateShrub(width, x, y, jitter).leaves.value[n] == leaf;
  }

  /** The lazy-init guard of `drawShrub`: leaves that are absent or empty
      are regenerated for the current canvas width; otherwise the shrub is
      left as it is. */
  function EnsureLeaves(shrub: Shrub, canvasWidth: real, x: real, y: real, jitter: Jitter): (r: Shrub)
    ensures shrub.leaves.Some? && |shrub.leaves.value| > 0 ==> r == shrub
    ensures shrub.leaves.None? || |shrub.leaves.value| == 0 ==> r == CreateShrub(canvasWidth, x, y, jitter)
    ensures r.leaves.Some? && |r.leaves.value| > 0
  {
    if shrub.leaves.None? || |shrub.leaves.value| == 0 then CreateShrub(canvasWidth, x, y, jitter) else shrub
  }

  /** Ensuring the leaves twice is ensuring them once, whatever the width
      and position of the second call. */
  lemma EnsureLeavesIdempotent(shrub: Shrub, w1: real, x1: real, y1: real, w2: real, x2: real, y2: real, jitter: Jitter)
    ensures EnsureLeaves(EnsureLeaves(shrub, w1, x1, y1, jitter), w2, x2, y2, jitter) == EnsureLeaves(shrub, w1, x1, y1, jitter)
  {
  }
}
